=== FILE: README.md ===
# Extended rock-paper-scissors: online match engine in Dafny

This project models the core of a web game of rock-paper-scissors played with up to ten
elements: rock, paper, scissors, fire, water, air, lizard, gun, lightning and shield.
It models five parts:

- **Rule set and resolver** (`Elements`, `ElementRules`).
  - The ten elements, what each one beats, and the three modes (classic, extended, full).
  - The winner rule. It is directional: the first choice wins exactly when the second choice is
    on the first's "beats" list. It does not check the reverse direction.
  - The text that explains a win.
- **Matchmaking queue** (`Matchmaking`, `QueueRules`). Players join and leave the queue.
  - Every join first expires entries older than 60 seconds.
  - A player whose entry was already paired gets that match back.
  - Otherwise the caller is paired with the oldest searching entry of any mode, in a match of a
    randomly drawn mode.
- **Online match** (`OnlineMatch`, `MatchRules`). The match record and its four transitions:
  - submitting a choice, which resolves the round once both slots have chosen (first to three
    round wins);
  - the ready handshake that starts the next round;
  - an explicit forfeit;
  - the state poll, which records activity and forfeits an opponent silent for more than ten
    seconds.
- **Single-player opponent's deterministic parts** (`GameAi`): the capped move history, its
  reset, and the search for an element that counters a predicted move.
- **Player statistics** (`PlayerStats`): the counters one finished round updates, the streaks,
  the score formula and the win rate.

Time is a whole number of seconds, passed in by the caller. The id of a new match and the mode
drawn for it are also parameters. The match store is a `map` from match id to match. The queue
is a sequence kept in creation-time order, which is the order the store returns entries in.

Behaviours of the code a reader might not expect:

- `next_round` has no status check. Once both players acknowledge, it reopens a *finished*
  match as `playing`, with one slot already at three points (`MatchRules.NextRoundReopensFinishedMatch`).
  It reopens a *forfeited* match the same way, keeping the recorded winner and forfeiting player
  (`MatchRules.NextRoundReopensForfeitedMatch`).
- A join by a player whose entry exists but is not yet paired does not return early. It
  refreshes the timestamp and goes on to pairing like any other join.
- The submitted choice is lower-cased before it is checked.

Properties that follow from the code as written, and are proved here:

- In the full set, fire and air beat each other, and so do gun and lightning.
- Ten pairs of distinct elements beat neither way.
- Nothing beats shield. So whoever plays shield in slot 2 never loses a round.
- A player id that is not slot 1's acts for slot 2.
- Resubmitting a choice after a round is resolved resolves the round again.
- An opponent who has never polled is never timed out.
- A caller left waiting in the queue is the only searching entry, so at most one player is ever
  reported searching.

## Model

| member | source | states |
|---|---|---|
| Common.Lower | game/views.py:269 | each character is mapped on its own: an ASCII capital becomes the letter 32 code points up, every other character is kept, so no upper-case ASCII letter remains |
| Common.Capitalize | game/game_logic.py:149 | the first character is upper-cased (an ASCII small letter moves 32 code points down) and every later one lower-cased, keeping the length |
| Elements.AllElementsComplete | game/game_logic.py:22-78 | the full element list holds every element exactly once |
| Elements.ElementsForMode | game/game_logic.py:76-88 | "classic" gives 3 elements, "extended" 5 and any other string 10; classic ⊆ every mode, and extended ⊆ every mode but classic |
| Elements.GetWinReason | game/game_logic.py:107-149 | a pair of keys with curated text gets that text; any other pair gets "<emoji> <Winner> beats <Loser>!" with an empty emoji for an unknown winner |
| Elements.LookupName | game/game_logic.py:22-73 | every element's key looks that element up again |
| Elements.NameInjective | game/game_logic.py:22-73 | distinct elements have distinct keys |
| Elements.NameInNames | game/game_logic.py:22-73 | a key is in a list of names exactly when its element is in the list |
| Elements.InNamesLookup | game/views.py:279-281 | a string that passes the mode check is the key of an element of that mode |
| Elements.DetermineWinner | game/game_logic.py:91-104 | a draw exactly on equal strings; an unknown first choice loses; a win only when the second is on the first's beats list |
| ElementRules.ModeSubsets | game/game_logic.py:76-88 | the sizes of the three modes, the fallback to all ten, and the nesting classic ⊆ extended ⊆ every other mode |
| ElementRules.DetermineWinnerOnElements | game/game_logic.py:91-104 | on element keys: draw iff equal, win iff distinct and the first defeats the second, lose iff distinct and it does not |
| ElementRules.UnknownFirstLoses | game/game_logic.py:99-104 | a first choice that is not an element loses against any other string |
| ElementRules.DirectionalPairs | game/game_logic.py:38-67 | fire/air and gun/lightning each win in both orders |
| ElementRules.DoubleLosses | game/game_logic.py:23-67 | rock/lightning and scissors/water each lose in both orders |
| ElementRules.DefeatsCases | game/game_logic.py:22-73 | the beats lists, read as membership, agree with the table written out as one equality disjunction per element |
| ElementRules.MutualWins | game/game_logic.py:22-73 | exactly two unordered pairs defeat each other |
| ElementRules.UndecidedPairs | game/game_logic.py:22-73 | exactly ten unordered pairs of distinct elements defeat neither way, and which ones |
| ElementRules.UndecidedByCase | game/game_logic.py:22-73 | the same ten pairs are exactly those the case-by-case table leaves undecided |
| ElementRules.UndecidedPairIsUndecided | game/game_logic.py:22-73 | each of the ten listed pairs is distinct and on neither element's row of the table |
| ElementRules.NotUndecidedByCase | game/game_logic.py:22-73 | every other pair is a draw or decided in at least one direction by the table |
| ElementRules.ShieldUnbeaten | game/game_logic.py:22-73 | no element has shield on its beats list |
| ElementRules.ShieldSecondNeverLoses | game/game_logic.py:91-104 | whatever the first choice, playing "shield" second never gives the first a win |
| ElementRules.ClassicCycle | game/game_logic.py:76-104 | on two distinct classic elements exactly one order wins, and a win one way is a loss the other |
| ElementRules.ExtendedNearlyCycle | game/game_logic.py:77-104 | in the extended set no pair wins both ways, and only scissors/water is undecided |
| ElementRules.CuratedExactlyOnBeats | game/game_logic.py:107-148 | a pair has curated text exactly when the winner's beats list holds the loser |
| ElementRules.WinReasonCurated | game/game_logic.py:107-149 | a pair the resolver counts as a win always gets its curated text |
| ElementRules.WinReasonFallback | game/game_logic.py:149 | an uncurated pair of elements gets "<emoji> <Winner> beats <Loser>!" |
| ElementRules.WinReasonUnknownWinner | game/game_logic.py:109-149 | an unknown winner gets the generated text with an empty emoji |
| ElementRules.CuratedReasonExample | game/game_logic.py:111 | rock over scissors reads "Rock crushes Scissors!" |
| ElementRules.GeneratedReasonExample | game/game_logic.py:149 | lightning over rock reads "⚡ Lightning beats Rock!" |
| GameAi.NewOpponent | game/game_logic.py:155-158 | a new opponent has the requested difficulty, an empty history and a pattern length of 5 |
| GameAi.AddToHistory | game/game_logic.py:160-165 | the choice becomes the last entry; the history never exceeds 100 entries; below the cap nothing is dropped; at the cap exactly the last 50 of history + [choice] remain |
| GameAi.Record | game/game_logic.py:160-165 | recording changes only the history |
| GameAi.HistoryEndsWithRecent | game/game_logic.py:160-165 | whatever the history held, after a run of at most 50 choices it ends with exactly those choices in order: truncation never drops a move of the run |
| GameAi.RunExtendsRecent | game/game_logic.py:160-165 | a history ending with some recent moves still ends with them, followed by the whole run, as long as the two together are at most 50 moves |
| GameAi.AddKeepsRecent | game/game_logic.py:160-165 | one append keeps a recent run of fewer than 50 moves at the end of the history, followed by the new move |
| GameAi.Reset | game/game_logic.py:242-244 | the history is emptied and nothing else changes |
| GameAi.FindCounter | game/game_logic.py:235-240 | a counter is found exactly when some available element beats the target, and it is the first such one |
| GameAi.ShieldHasNoCounter | game/game_logic.py:235-240 | a predicted shield has no counter, so it always falls back to chance |
| PlayerStats.NewPlayer | game/models.py:6-22 | a new player's counters are zero and consistent |
| PlayerStats.CalculateScore | game/models.py:33-41 | the stored score becomes the formula's value and nothing else changes |
| PlayerStats.UpdateStats | game/models.py:49-73 | per field: games +1; the win, loss or draw counter +1; the difficulty counter +1 on a win; the streak rules; the score recomputed |
| PlayerStats.UpdatePreservesConsistency | game/models.py:49-73 | recording a round keeps wins+losses+draws = games, difficulty wins ≤ wins, current streak ≤ best, and score = formula |
| PlayerStats.ScoreChange | game/models.py:33-73 | a round moves the score by +15/+13/+10 for a veteran/hard/other win, −2 for a loss, 0 for a draw |
| PlayerStats.WinRate | game/models.py:43-47 | 0 with no games; otherwise rate × games = wins × 100 |
| OnlineMatch.CreateGame | game/views.py:123-132 | the new match has the paired ids and names in pairing order, the drawn mode, status playing, round 1, the default limit of 5 rounds, zero scores, and the timer started |
| OnlineMatch.ResolveRound | game/views.py:291-326 | resolution touches only the scores, status, winner and round result |
| OnlineMatch.MakeChoice | game/views.py:266-334 | errors in source order (not found, not active, invalid choice) and only those; on success the caller's slot holds the element; the opponent's choice, the identity, names, ready flags, last-seen times, round, round limit and timer are unchanged; "waiting" iff a choice is missing; the completing choice resolves the round (MatchRules.MakeChoiceEffect) |
| OnlineMatch.NextRound | game/views.py:341-379 | unknown match is an error; the caller's acknowledgement advances the round exactly when the opponent was ready; an advance clears choices, flags and result, restarts the timer and changes nothing else; the reported flag is always false |
| OnlineMatch.ForfeitGame | game/views.py:386-422 | unknown match is an error; an ended match reports already-ended; otherwise the addressed slot forfeits and the other wins, nothing else changes |
| OnlineMatch.GetGameState | game/views.py:187-224 | the caller is marked seen now; the opponent is forfeited iff the match is active and they were last seen over 10 s ago; nothing else changes |
| MatchRules.ResolveRoundDraw | game/views.py:294-306 | equal choices leave the scores and record the draw text |
| MatchRules.ResolveRoundFirstWins | game/views.py:294-299 | slot 1's element defeating slot 2's scores for slot 1 with the curated text |
| MatchRules.ResolveRoundSecondWins | game/views.py:294-303 | every other distinct pair scores for slot 2, with the reason told from slot 2's element |
| MatchRules.ResolveRoundStatus | game/views.py:318-326 | finished iff a score reached 3, slot 1 checked first; otherwise round complete with the winner untouched; at most one point added |
| MatchRules.ResolveRoundKeepsScores | game/views.py:291-326 | resolving from scores below 3 keeps the first-to-three invariant |
| MatchRules.MakeChoiceEffect | game/views.py:283-326 | the completing choice resolves the round; an earlier one changes only the choice |
| MatchRules.ResubmissionReResolves | game/views.py:275-326 | a submission into a resolved round resolves it again: the result is a fresh resolution of the match with the caller's new choice, under the same round number |
| MatchRules.ResubmissionScoresTwice | game/views.py:291-326 | after rock beats scissors, slot 2 resubmitting scissors gives slot 1 a second point while the round number stays 1 |
| MatchRules.MakeChoiceKeepsScores | game/views.py:260-334 | a submission keeps the first-to-three invariant |
| MatchRules.EndedMatchRejectsChoices | game/views.py:275-276 | finished and forfeited matches reject every choice |
| MatchRules.UnknownIdPlaysSlot2 | game/views.py:284-289 | any id other than slot 1's submits for slot 2 and leaves slot 1's choice unchanged |
| MatchRules.CreatedGameValid | game/views.py:123-132 | a new match satisfies the invariant |
| MatchRules.NextRoundKeepsScores | game/views.py:341-379 | the handshake keeps the invariant on a match that is not finished |
| MatchRules.NextRoundReopensFinishedMatch | game/views.py:355-372 | on a finished match the completed handshake sets status playing and breaks the invariant |
| MatchRules.NextRoundReopensForfeitedMatch | game/views.py:355-372 | on a forfeited match the completed handshake sets status playing, advances the round and keeps winner and forfeiting player |
| MatchRules.NextRoundIdempotent | game/views.py:355-361 | acknowledging twice before the opponent is the same as once and starts no round |
| MatchRules.HandshakeAdvancesOnce | game/views.py:355-372 | two acknowledgements from the two slots start exactly one new round |
| MatchRules.ForfeitKeepsScores | game/views.py:401-416 | a forfeit keeps the invariant |
| MatchRules.PollKeepsScores | game/views.py:201-224 | the state poll keeps the invariant |
| MatchRules.NeverSeenNeverForfeits | game/views.py:212-216 | an opponent with no recorded activity is never timed out |
| MatchRules.DisconnectScenario | game/views.py:184-222 | eleven seconds of silence from slot 2 forfeits the match to slot 1 on slot 1's next poll |
| MatchRules.RockBeatsScissorsScenario | game/views.py:260-326 | rock then scissors in a new classic match: waiting, then slot 1 wins the round 1-0 with "Rock crushes Scissors!" |
| Matchmaking.Purge | game/views.py:89-91 | the entries kept are exactly those not older than 60 seconds |
| Matchmaking.Without | game/views.py:176 | the entries kept are exactly the other players'; a player with no entry changes nothing |
| Matchmaking.FindPlayer | game/views.py:94 | finds the player's entry, or reports that there is none |
| Matchmaking.FindPartner | game/views.py:113-116 | the first searching entry of another player, or none when there is none |
| Matchmaking.Enqueue | game/views.py:93-111 | the caller goes last, stamped now: an existing entry keeps its other fields, a new one is searching; the rest of the queue is the others' entries |
| Matchmaking.MarkMatched | game/views.py:134-142 | the partner's and the caller's entries become matched into the new match; ids, timestamps and every other entry are unchanged |
| Matchmaking.QueuePosition | game/views.py:150-154 | the number of searching entries of the mode created by now, counted as a set of queue positions; zero exactly when there are none |
| Matchmaking.PlayersOnline | game/views.py:159 | the number of searching entries, counted as a set of queue positions; zero exactly when there are none |
| Matchmaking.Join | game/views.py:78-160 | a created match is reported by its id; a searching reply creates no match |
| Matchmaking.Leave | game/views.py:166-181 | deletes exactly the caller's entries; no entry is no error |
| QueueRules.JoinKeepsUnique | game/models.py:112 | a join never gives a player a second entry |
| QueueRules.LeaveKeepsUnique | game/views.py:176 | leaving never gives a player a second entry |
| QueueRules.RunKeepsUnique | game/models.py:112 | any sequence of joins and leaves keeps one entry per player |
| QueueRules.JoinLeavesNoStaleEntry | game/views.py:89-91 | after a join no entry is older than 60 seconds |
| QueueRules.JoinKeepsSorted | game/models.py:119-120 | a join keeps creation-time order when the clock does not run backwards |
| QueueRules.JoinShortCut | game/views.py:93-100 | a caller whose entry was already paired gets that match id, and only expiry happens |
| QueueRules.JoinCallerEntry | game/views.py:93-111 | otherwise the caller has exactly one entry, the last, stamped now; a new caller's entry has the request's name and mode |
| QueueRules.JoinCreatesMatchIff | game/views.py:93-147 | a join creates a match exactly when the caller was not already paired and another player is searching |
| QueueRules.JoinPairing | game/views.py:113-147 | a pairing takes the first searching entry of another player in any mode; partner in slot 1, caller in slot 2; both entries marked matched |
| QueueRules.PartnerIsOldest | game/views.py:113-116 | in a queue in creation order the partner is the oldest eligible entry |
| QueueRules.WaitingCallerIsAlone | game/views.py:149-160 | a caller left waiting is the only searching entry; players online is 1 or 0; the position counts only the caller's own entry |
| QueueRules.LeaveRemovesOnlyEntry | game/views.py:176 | with one entry per player, leaving removes exactly the caller's entry and keeps all others in order |
| QueueRules.LeaveKeepsSorted | game/views.py:176 | leaving keeps creation-time order and the clock bound |
| QueueRules.RunKeepsSorted | game/models.py:119-120 | any sequence of joins and leaves under a clock that never runs backwards keeps creation-time order, and no entry is stamped after the run's last join |
| QueueRules.ReachablePartnerIsOldest | game/views.py:113-116 | in every queue reached from the empty queue under such a clock, a join that pairs takes the oldest eligible entry |
| QueueRules.TwoJoinsPair | game/views.py:78-147 | a classic and a full join within 60 s pair the two players in the drawn mode |

## Left out

- HTTP transport is not modelled: request methods, JSON parsing, status codes, the catch-all
  500 reply, and the assembly of the response dictionaries. A transition returns the updated
  record, or an error, and the reply's essential fields.
- The persistence layer is not modelled. Saving, `auto_now` timestamps and the 100-character
  `round_result` column are out of scope. The JSON of one round result is longer than 100
  characters, which a database that enforces the limit would reject.
- Concurrency is not modelled: races between simultaneous joins or simultaneous submissions.
  Every call is atomic here.
- Randomness, uuids and the clock are parameters: the mode drawn at pairing, the new match id,
  and `now`. The random, pattern-based, weighted and predictive move choices of the
  single-player opponent are left out.
- GameAi.FindCounter: returns None where the source falls back to a random available element.
- PlayerStats.WinRate: the percentage is not rounded to one decimal place. Floating point is not
  modelled.
- Common.Lower: ASCII only. Python's `str.lower` also folds non-ASCII letters.
- Common.Capitalize: ASCII only, for the same reason.
- Time is a whole number of seconds throughout. The source compares timestamps with sub-second
  precision, so the 60-second expiry and the 10-second liveness check are modelled at one-second
  granularity.
- Matchmaking.Join: reads the clock once, in whole seconds. The source reads it again for the
  position query, after stamping the caller's entry, and counts entries created strictly before
  that second reading. This is modelled as "created at or before `now`".
- Matchmaking.Join: ties between equal timestamps take queue order.
- OnlineMatch.RoundResult: the stored round result omits the two emoji fields; they are read from the element table and carry no state.
- Leaderboards, rankings, the single-player round view, `GameSession`/`GameRound` records,
  templates, and the Django settings, urls and admin are not part of this model.

=== FILE: common.dfy ===
/**
 * Small shared vocabulary: an Option type, an order-preserving sequence
 * filter, and the ASCII case mappings the game applies to element names.
 */
module Common {

  /** A value that may be absent (the source's `None`). */
  datatype Option<T> = None | Some(value: T)

  /** Keeps the elements of `s` that satisfy `keep`, in their original order. */
  function Filter<T(!new)>(s: seq<T>, keep: T -> bool): (r: seq<T>)
    ensures |r| <= |s|
    ensures forall x :: x in r <==> x in s && keep(x)
    ensures forall i :: 0 <= i < |r| ==> keep(r[i])
  {
    if |s| == 0 then []
    else (if keep(s[0]) then [s[0]] else []) + Filter(s[1..], keep)
  }

  /** Filtering with a predicate every element satisfies changes nothing. */
  lemma {:induction false} FilterKeepsAll<T(!new)>(s: seq<T>, keep: T -> bool)
    requires forall i :: 0 <= i < |s| ==> keep(s[i])
    ensures Filter(s, keep) == s
  {
    if |s| > 0 {
      FilterKeepsAll(s[1..], keep);
    }
  }

  /** The first position at or after `from` whose element satisfies `p`, if any. */
  function FirstIndex<T>(s: seq<T>, p: T -> bool, from: nat): (r: Option<nat>)
    requires from <= |s|
    ensures r.Some? ==> from <= r.value < |s| && p(s[r.value])
    ensures r.Some? ==> forall j :: from <= j < r.value ==> !p(s[j])
    ensures r.None? ==> forall j :: from <= j < |s| ==> !p(s[j])
    decreases |s| - from
  {
    if from == |s| then None
    else if p(s[from]) then Some(from)
    else FirstIndex(s, p, from + 1)
  }

  /** Filtering a concatenation filters each part. */
  lemma {:induction false} FilterAppend<T(!new)>(s: seq<T>, t: seq<T>, keep: T -> bool)
    ensures Filter(s + t, keep) == Filter(s, keep) + Filter(t, keep)
  {
    if |s| == 0 {
      assert s + t == t;
    } else {
      assert (s + t)[0] == s[0];
      assert (s + t)[1..] == s[1..] + t;
      FilterAppend(s[1..], t, keep);
    }
  }

  /** Filtering with a predicate no element satisfies leaves nothing. */
  lemma FilterKeepsNone<T(!new)>(s: seq<T>, keep: T -> bool)
    requires forall i :: 0 <= i < |s| ==> !keep(s[i])
    ensures Filter(s, keep) == []
  {
  }

  /** Filtering out exactly one position removes that element and keeps the rest in order. */
  lemma {:induction false} FilterDropsOne<T(!new)>(s: seq<T>, keep: T -> bool, k: nat)
    requires k < |s| && !keep(s[k])
    requires forall i :: 0 <= i < |s| && i != k ==> keep(s[i])
    ensures Filter(s, keep) == s[..k] + s[k + 1..]
    decreases k
  {
    if k == 0 {
      FilterSkipsHead(s, keep);
    } else {
      FilterDropsOne(s[1..], keep, k - 1);
      FilterKeepsHead(s, keep, k);
    }
  }

  /** The first case of `FilterDropsOne`: the dropped element is the head. */
  lemma FilterSkipsHead<T(!new)>(s: seq<T>, keep: T -> bool)
    requires |s| > 0 && !keep(s[0])
    requires forall i :: 1 <= i < |s| ==> keep(s[i])
    ensures Filter(s, keep) == s[1..]
  {
    assert forall i :: 0 <= i < |s| - 1 ==> s[1..][i] == s[i + 1];
    FilterKeepsAll(s[1..], keep);
  }

  /** The step of `FilterDropsOne`: a kept head goes in front of the filtered tail. */
  lemma FilterKeepsHead<T(!new)>(s: seq<T>, keep: T -> bool, k: nat)
    requires 0 < k < |s| && keep(s[0])
    requires Filter(s[1..], keep) == s[1..][..k - 1] + s[1..][k..]
    ensures Filter(s, keep) == s[..k] + s[k + 1..]
  {
    assert Filter(s, keep) == [s[0]] + Filter(s[1..], keep);
    SpliceAfterHead(s, k);
  }

  /** Removing position `k` from a sequence is keeping its head and removing position `k - 1` from its tail. */
  lemma SpliceAfterHead<T>(s: seq<T>, k: nat)
    requires 0 < k < |s|
    ensures [s[0]] + (s[1..][..k - 1] + s[1..][k..]) == s[..k] + s[k + 1..]
  {
    assert s[..k] == [s[0]] + s[1..][..k - 1];
    assert s[k + 1..] == s[1..][k..];
  }

  /** The positions of `s` whose element satisfies `keep`. */
  function IndicesWhere<T>(s: seq<T>, keep: T -> bool): set<int> {
    set i | 0 <= i < |s| && keep(s[i])
  }

  /** A filter keeps as many elements as there are positions satisfying the predicate. */
  lemma {:induction false} FilterCountsIndices<T(!new)>(s: seq<T>, keep: T -> bool)
    ensures |Filter(s, keep)| == |IndicesWhere(s, keep)|
    decreases |s|
  {
    if |s| == 0 {
      assert IndicesWhere(s, keep) == {};
    } else {
      var n := |s|;
      var pre := s[..n - 1];
      assert s == pre + [s[n - 1]];
      FilterAppend(pre, [s[n - 1]], keep);
      FilterCountsIndices(pre, keep);
      assert [s[n - 1]][1..] == [];
      IndicesSnoc(s, keep);
    }
  }

  /** The positions of a non-empty sequence are those of its front, plus the last one if it is kept. */
  lemma IndicesSnoc<T>(s: seq<T>, keep: T -> bool)
    requires |s| > 0
    ensures var n := |s|;
      && IndicesWhere(s, keep) == IndicesWhere(s[..n - 1], keep) + (if keep(s[n - 1]) then {n - 1} else {})
      && n - 1 !in IndicesWhere(s[..n - 1], keep)
  {
    var n := |s|;
    var pre := s[..n - 1];
    assert forall i :: 0 <= i < n - 1 ==> pre[i] == s[i];
  }

  /** A filter comes out empty exactly when no element satisfies the predicate. */
  lemma FilterEmptyIff<T(!new)>(s: seq<T>, keep: T -> bool)
    ensures |Filter(s, keep)| == 0 <==> forall i :: 0 <= i < |s| ==> !keep(s[i])
  {
    var r := Filter(s, keep);
    if |r| > 0 {
      assert r[0] in s;
      var i :| 0 <= i < |s| && s[i] == r[0];
      assert keep(s[i]);
    }
  }

  /** Lower-cases one ASCII letter; every other character is left alone. */
  function LowerChar(c: char): (r: char)
    ensures 'A' <= c <= 'Z' ==> r as int == c as int + 32 && 'a' <= r <= 'z'
    ensures !('A' <= c <= 'Z') ==> r == c
  {
    if 'A' <= c <= 'Z' then (c as int + 32) as char else c
  }

  /** Upper-cases one ASCII letter; every other character is left alone. */
  function UpperChar(c: char): (r: char)
    ensures 'a' <= c <= 'z' ==> r as int == c as int - 32 && 'A' <= r <= 'Z'
    ensures !('a' <= c <= 'z') ==> r == c
  {
    if 'a' <= c <= 'z' then (c as int - 32) as char else c
  }

  /** Python's `str.lower()` restricted to ASCII letters. */
  function Lower(s: string): (r: string)
    ensures |r| == |s|
    ensures forall i :: 0 <= i < |s| ==> r[i] == LowerChar(s[i])
    ensures forall i :: 0 <= i < |r| ==> !('A' <= r[i] <= 'Z')
  {
    seq(|s|, i requires 0 <= i < |s| => LowerChar(s[i]))
  }

  /** A string with no upper-case ASCII letter is its own lower-casing. */
  lemma LowerKeepsLower(s: string)
    requires forall i :: 0 <= i < |s| ==> !('A' <= s[i] <= 'Z')
    ensures Lower(s) == s
  {
    assert forall i :: 0 <= i < |s| ==> Lower(s)[i] == s[i];
  }

  /**
   * Python's `str.capitalize()` restricted to ASCII letters: the first
   * character upper-cased, the rest lower-cased.
   */
  function Capitalize(s: string): (r: string)
    ensures |r| == |s|
    ensures |s| > 0 ==> r[0] == UpperChar(s[0]) && !('a' <= r[0] <= 'z')
    ensures forall i :: 1 <= i < |s| ==> r[i] == LowerChar(s[i]) && !('A' <= r[i] <= 'Z')
  {
    if |s| == 0 then "" else [UpperChar(s[0])] + Lower(s[1..])
  }
}

=== FILE: element_rules.dfy ===
/**
 * Properties of the element rule set and of the resolver: the mode subsets,
 * the directional (not antisymmetric) winner rule, the classic cycle, and
 * which pairs get curated text.
 */
module ElementRules {
  import opened Common
  import opened Elements

  /** classic is three elements, extended five, anything else all ten; each mode contains the smaller ones. */
  lemma ModeSubsets(mode: string)
    ensures |ElementsForMode("classic")| == 3 && |ElementsForMode("extended")| == 5
    ensures mode != "classic" && mode != "extended" ==> ElementsForMode(mode) == AllElements
    ensures forall e :: e in ElementsForMode("classic") ==> e in ElementsForMode("extended")
    ensures forall e :: e in ElementsForMode("extended") ==> e in ElementsForMode(mode) || mode == "classic"
    ensures forall e :: e in ElementsForMode(mode) ==> e in AllElements
  {
  }

  /** On element keys the resolver is the `Defeats` relation read from the first element. */
  lemma DetermineWinnerOnElements(x: Element, y: Element)
    ensures DetermineWinner(Name(x), Name(y)) == Draw <==> x == y
    ensures DetermineWinner(Name(x), Name(y)) == Win <==> x != y && Defeats(x, y)
    ensures DetermineWinner(Name(x), Name(y)) == Lose <==> x != y && !Defeats(x, y)
  {
    NameInjective(x, y);
    LookupName(x);
    NameInNames(y, Beats(x));
  }

  /** Against any other string, an unknown first choice loses. */
  lemma UnknownFirstLoses(a: string, b: string)
    requires Lookup(a).None? && a != b
    ensures DetermineWinner(a, b) == Lose
  {
  }

  /** In the full set the resolver is not antisymmetric: fire and air, and gun and lightning, each win both ways. */
  lemma DirectionalPairs()
    ensures DetermineWinner(Name(Fire), Name(Air)) == Win && DetermineWinner(Name(Air), Name(Fire)) == Win
    ensures DetermineWinner(Name(Gun), Name(Lightning)) == Win && DetermineWinner(Name(Lightning), Name(Gun)) == Win
  {
    DetermineWinnerOnElements(Fire, Air);
    DetermineWinnerOnElements(Air, Fire);
    DetermineWinnerOnElements(Gun, Lightning);
    DetermineWinnerOnElements(Lightning, Gun);
  }

  /** And some pairs lose both ways: rock and lightning, scissors and water. */
  lemma DoubleLosses()
    ensures DetermineWinner(Name(Rock), Name(Lightning)) == Lose && DetermineWinner(Name(Lightning), Name(Rock)) == Lose
    ensures DetermineWinner(Name(Scissors), Name(Water)) == Lose && DetermineWinner(Name(Water), Name(Scissors)) == Lose
  {
    DetermineWinnerOnElements(Rock, Lightning);
    DetermineWinnerOnElements(Lightning, Rock);
    DetermineWinnerOnElements(Scissors, Water);
    DetermineWinnerOnElements(Water, Scissors);
  }

  /** The pairs in which each element is on the other's beats list. */
  predicate MutualPair(a: Element, b: Element) {
    Unordered(a, b, Fire, Air) || Unordered(a, b, Gun, Lightning)
  }

  /** The distinct pairs in which neither element is on the other's beats list. */
  predicate UndecidedPair(a: Element, b: Element) {
    Unordered(a, b, Rock, Lightning) || Unordered(a, b, Paper, Gun) || Unordered(a, b, Paper, Lightning) ||
    Unordered(a, b, Paper, Shield) || Unordered(a, b, Scissors, Water) || Unordered(a, b, Fire, Shield) ||
    Unordered(a, b, Water, Shield) || Unordered(a, b, Air, Lightning) || Unordered(a, b, Air, Shield) ||
    Unordered(a, b, Lizard, Shield)
  }

  /** `a` and `b` are `x` and `y` in either order. */
  predicate Unordered(a: Element, b: Element, x: Element, y: Element) {
    (a == x && b == y) || (a == y && b == x)
  }

  /** The beats table written as equalities, one case per element. */
  predicate DefeatsByCase(a: Element, b: Element) {
    match a
    case Rock => b == Scissors || b == Lizard || b == Fire
    case Paper => b == Rock || b == Air || b == Water
    case Scissors => b == Paper || b == Air || b == Lizard
    case Fire => b == Paper || b == Scissors || b == Air || b == Lizard
    case Water => b == Fire || b == Rock || b == Lizard || b == Gun
    case Air => b == Fire || b == Rock || b == Water
    case Lizard => b == Paper || b == Air || b == Lightning
    case Gun => b == Rock || b == Scissors || b == Fire || b == Lizard || b == Air || b == Lightning
    case Lightning => b == Water || b == Scissors || b == Gun || b == Fire
    case Shield => b == Gun || b == Rock || b == Scissors || b == Lightning
  }

  /** `Defeats` agrees with the table written out case by case. */
  lemma DefeatsCases(a: Element, b: Element)
    ensures Defeats(a, b) <==> DefeatsByCase(a, b)
  {
  }

  /** Exactly two unordered pairs beat each other. */
  lemma MutualWins(a: Element, b: Element)
    ensures Defeats(a, b) && Defeats(b, a) <==> MutualPair(a, b)
  {
    DefeatsCases(a, b);
    DefeatsCases(b, a);
  }

  /** Exactly ten unordered pairs of distinct elements beat neither way. */
  lemma UndecidedPairs(a: Element, b: Element)
    ensures a != b && !Defeats(a, b) && !Defeats(b, a) <==> UndecidedPair(a, b)
  {
    DefeatsCases(a, b);
    DefeatsCases(b, a);
    UndecidedByCase(a, b);
  }

  /** The same ten pairs, read off the case-by-case table. */
  lemma UndecidedByCase(a: Element, b: Element)
    ensures a != b && !DefeatsByCase(a, b) && !DefeatsByCase(b, a) <==> UndecidedPair(a, b)
  {
    if UndecidedPair(a, b) {
      UndecidedPairIsUndecided(a, b);
    } else {
      NotUndecidedByCase(a, b);
    }
  }

  /** Each of the ten pairs is left undecided by the table. */
  lemma UndecidedPairIsUndecided(a: Element, b: Element)
    requires UndecidedPair(a, b)
    ensures a != b && !DefeatsByCase(a, b) && !DefeatsByCase(b, a)
  {
    if Unordered(a, b, Rock, Lightning) {
    } else if Unordered(a, b, Paper, Gun) {
    } else if Unordered(a, b, Paper, Lightning) {
    } else if Unordered(a, b, Paper, Shield) {
    } else if Unordered(a, b, Scissors, Water) {
    } else if Unordered(a, b, Fire, Shield) {
    } else if Unordered(a, b, Water, Shield) {
    } else if Unordered(a, b, Air, Lightning) {
    } else if Unordered(a, b, Air, Shield) {
    } else if Unordered(a, b, Lizard, Shield) {
    }
  }

  /** Every distinct pair outside the ten is decided one way or the other by the table. */
  lemma NotUndecidedByCase(a: Element, b: Element)
    requires !UndecidedPair(a, b)
    ensures a == b || DefeatsByCase(a, b) || DefeatsByCase(b, a)
  {
  }

  /** No element has shield on its beats list. */
  lemma ShieldUnbeaten(e: Element)
    ensures !Defeats(e, Shield)
  {
  }

  /** So whoever plays shield second never loses a round, whatever the first choice. */
  lemma ShieldSecondNeverLoses(a: string)
    ensures DetermineWinner(a, "shield") != Win
  {
    if DetermineWinner(a, "shield") == Win {
      var e := Lookup(a).value;
      LookupName(Shield);
      NameInNames(Shield, Beats(e));
      ShieldUnbeaten(e);
    }
  }

  /** Restricted to the classic elements the resolver is a total antisymmetric 3-cycle. */
  lemma ClassicCycle(a: Element, b: Element)
    requires a in ClassicElements && b in ClassicElements && a != b
    ensures (DetermineWinner(Name(a), Name(b)) == Win) != (DetermineWinner(Name(b), Name(a)) == Win)
    ensures DetermineWinner(Name(a), Name(b)) == Win <==> DetermineWinner(Name(b), Name(a)) == Lose
  {
    assert Defeats(a, b) != Defeats(b, a);
    DetermineWinnerOnElements(a, b);
    DetermineWinnerOnElements(b, a);
  }

  /** The extended set is antisymmetric, and only scissors and water leave each other undecided. */
  lemma ExtendedNearlyCycle(a: Element, b: Element)
    requires a in ExtendedElements && b in ExtendedElements && a != b
    ensures !(Defeats(a, b) && Defeats(b, a))
    ensures !Defeats(a, b) && !Defeats(b, a) <==> Unordered(a, b, Scissors, Water)
  {
    DefeatsCases(a, b);
    DefeatsCases(b, a);
  }

  /** There is curated text for a pair exactly when the winner's beats list holds the loser. */
  lemma CuratedExactlyOnBeats(w: Element, l: Element)
    ensures Description(w, l).Some? <==> Defeats(w, l)
  {
    match w
    case Rock =>
    case Paper =>
    case Scissors =>
    case Fire =>
    case Water =>
    case Air =>
    case Lizard =>
    case Gun =>
    case Lightning =>
    case Shield =>
  }

  /** A win the resolver awards always gets its curated text. */
  lemma WinReasonCurated(w: Element, l: Element)
    requires Defeats(w, l)
    ensures Description(w, l).Some? && GetWinReason(Name(w), Name(l)) == Description(w, l).value
  {
    CuratedExactlyOnBeats(w, l);
    LookupName(w);
    LookupName(l);
  }

  /** An uncurated pair of known elements gets the generated "<emoji> <Winner> beats <Loser>!" text. */
  lemma WinReasonFallback(w: Element, l: Element)
    requires !Defeats(w, l)
    ensures GetWinReason(Name(w), Name(l))
         == Emoji(w) + " " + Capitalize(Name(w)) + " beats " + Capitalize(Name(l)) + "!"
  {
    CuratedExactlyOnBeats(w, l);
    LookupName(w);
    LookupName(l);
  }

  /** An unknown winner has no curated text and an empty emoji. */
  lemma WinReasonUnknownWinner(w: string, l: string)
    requires Lookup(w).None?
    ensures GetWinReason(w, l) == " " + Capitalize(w) + " beats " + Capitalize(l) + "!"
  {
  }

  /** Worked example of a curated reason. */
  lemma CuratedReasonExample()
    ensures GetWinReason(Name(Rock), Name(Scissors)) == "Rock crushes Scissors!"
  {
    WinReasonCurated(Rock, Scissors);
  }

  /** Worked example of a generated reason: lightning and rock do not beat each other. */
  lemma GeneratedReasonExample()
    ensures GetWinReason(Name(Lightning), Name(Rock)) == "\U{26A1} Lightning beats Rock!"
  {
    WinReasonFallback(Lightning, Rock);
    GeneratedText();
  }

  lemma GeneratedText()
    ensures Emoji(Lightning) + " " + Capitalize(Name(Lightning)) + " beats " + Capitalize(Name(Rock)) + "!"
         == "\U{26A1} Lightning beats Rock!"
  {
    CapitalizeExamples();
    ConcatReason();
  }

  lemma ConcatReason()
    ensures "\U{26A1}" + " " + "Lightning" + " beats " + "Rock" + "!" == "\U{26A1} Lightning beats Rock!"
  {
    var text := "\U{26A1}" + " " + "Lightning" + " beats " + "Rock" + "!";
    assert |text| == 23;
    assert forall i :: 0 <= i < 23 ==> text[i] == "\U{26A1} Lightning beats Rock!"[i];
  }

  lemma CapitalizeExamples()
    ensures Capitalize("lightning") == "Lightning"
    ensures Capitalize("rock") == "Rock"
  {
    CapitalizeLightning();
    CapitalizeRock();
  }

  lemma CapitalizeLightning()
    ensures Capitalize("lightning") == "Lightning"
  {
    LowerKeepsLower("ightning");
    assert [UpperChar('l')] + "ightning" == "Lightning";
  }

  lemma CapitalizeRock()
    ensures Capitalize("rock") == "Rock"
  {
    LowerKeepsLower("ock");
    assert [UpperChar('r')] + "ock" == "Rock";
  }
}

=== FILE: elements.dfy ===
/**
 * The element rule set and the round resolver of the extended
 * rock-paper-scissors game: ten elements, what each one beats, the element
 * subsets of the three modes, the directional winner rule and the text that
 * explains a win.
 */
module Elements {
  import opened Common

  datatype Element = Rock | Paper | Scissors | Fire | Water | Air | Lizard | Gun | Lightning | Shield

  /** Result of a round from the first player's point of view. */
  datatype Outcome = Win | Lose | Draw

  /** The three modes a match can be created with. */
  datatype Mode = Classic | Extended | Full

  /** The key under which an element is stored and submitted. */
  function Name(e: Element): string {
    match e
    case Rock => "rock"
    case Paper => "paper"
    case Scissors => "scissors"
    case Fire => "fire"
    case Water => "water"
    case Air => "air"
    case Lizard => "lizard"
    case Gun => "gun"
    case Lightning => "lightning"
    case Shield => "shield"
  }

  /** The emoji shown for an element, as code points. */
  function Emoji(e: Element): string {
    match e
    case Rock => "\U{1FAA8}"
    case Paper => "\U{1F4C4}"
    case Scissors => "\U{2702}\U{FE0F}"
    case Fire => "\U{1F525}"
    case Water => "\U{1F4A7}"
    case Air => "\U{1F4A8}"
    case Lizard => "\U{1F98E}"
    case Gun => "\U{1F52B}"
    case Lightning => "\U{26A1}"
    case Shield => "\U{1F6E1}\U{FE0F}"
  }

  /** The "beats" list of each element, in the order the rule table gives it. */
  function Beats(e: Element): seq<Element> {
    match e
    case Rock => [Scissors, Lizard, Fire]
    case Paper => [Rock, Air, Water]
    case Scissors => [Paper, Air, Lizard]
    case Fire => [Paper, Scissors, Air, Lizard]
    case Water => [Fire, Rock, Lizard, Gun]
    case Air => [Fire, Rock, Water]
    case Lizard => [Paper, Air, Lightning]
    case Gun => [Rock, Scissors, Fire, Lizard, Air, Lightning]
    case Lightning => [Water, Scissors, Gun, Fire]
    case Shield => [Gun, Rock, Scissors, Lightning]
  }

  /** `a` defeats `b` when `b` is on `a`'s beats list. */
  predicate Defeats(a: Element, b: Element) {
    b in Beats(a)
  }

  /** Every element, in the key order of the rule table (the full mode). */
  const AllElements: seq<Element> := [Rock, Paper, Scissors, Fire, Water, Air, Lizard, Gun, Lightning, Shield]

  /** The full element list holds every element exactly once. */
  lemma AllElementsComplete(e: Element)
    ensures e in AllElements
    ensures multiset(AllElements)[e] == 1
  {
    match e
    case Rock =>
    case Paper =>
    case Scissors =>
    case Fire =>
    case Water =>
    case Air =>
    case Lizard =>
    case Gun =>
    case Lightning =>
    case Shield =>
  }

  const ClassicElements: seq<Element> := [Rock, Paper, Scissors]

  const ExtendedElements: seq<Element> := [Rock, Paper, Scissors, Fire, Water]

  function ModeName(m: Mode): string {
    match m
    case Classic => "classic"
    case Extended => "extended"
    case Full => "full"
  }

  /**
   * The elements playable in a mode. Only the exact strings "classic" and
   * "extended" select a subset; every other string selects all ten.
   */
  function ElementsForMode(mode: string): (r: seq<Element>)
    ensures |r| == (if mode == "classic" then 3 else if mode == "extended" then 5 else 10)
    ensures forall e :: e in ClassicElements ==> e in r
    ensures mode != "classic" ==> forall e :: e in ExtendedElements ==> e in r
  {
    if mode == "classic" then ClassicElements
    else if mode == "extended" then ExtendedElements
    else AllElements
  }

  /** The names of a list of elements, position by position. */
  function Names(es: seq<Element>): (r: seq<string>)
    ensures |r| == |es|
    ensures forall i :: 0 <= i < |es| ==> r[i] == Name(es[i])
  {
    seq(|es|, i requires 0 <= i < |es| => Name(es[i]))
  }

  /** Looks an element up by its exact key, as a dictionary `get` does. */
  function Lookup(s: string): (r: Option<Element>)
    ensures r.Some? ==> Name(r.value) == s
  {
    if s == "rock" then Some(Rock)
    else if s == "paper" then Some(Paper)
    else if s == "scissors" then Some(Scissors)
    else if s == "fire" then Some(Fire)
    else if s == "water" then Some(Water)
    else if s == "air" then Some(Air)
    else if s == "lizard" then Some(Lizard)
    else if s == "gun" then Some(Gun)
    else if s == "lightning" then Some(Lightning)
    else if s == "shield" then Some(Shield)
    else None
  }

  /** Every element's key looks that element up again. */
  lemma LookupName(e: Element)
    ensures Lookup(Name(e)) == Some(e)
  {
  }

  /** Distinct elements have distinct keys. */
  lemma NameInjective(a: Element, b: Element)
    ensures Name(a) == Name(b) <==> a == b
  {
    LookupName(a);
    LookupName(b);
  }

  /** A key is in a list of names exactly when its element is in the list. */
  lemma NameInNames(x: Element, es: seq<Element>)
    ensures Name(x) in Names(es) <==> x in es
  {
    if Name(x) in Names(es) {
      var i :| 0 <= i < |es| && Names(es)[i] == Name(x);
      NameInjective(x, es[i]);
    }
    if x in es {
      var i :| 0 <= i < |es| && es[i] == x;
      assert Names(es)[i] == Name(x);
    }
  }

  /** A string in a list of names is the key of one of the listed elements. */
  lemma InNamesLookup(s: string, es: seq<Element>)
    requires s in Names(es)
    ensures Lookup(s).Some? && Lookup(s).value in es
  {
    var i :| 0 <= i < |es| && Names(es)[i] == s;
    LookupName(es[i]);
  }

  /**
   * The directional resolver: equal choices draw; otherwise the first
   * choice wins exactly when the second is on the first's beats list, and
   * loses in every other case, including an unknown first choice.
   */
  function DetermineWinner(a: string, b: string): (r: Outcome)
    ensures r == Draw <==> a == b
    ensures a != b && Lookup(a).None? ==> r == Lose
    ensures r == Win ==> Lookup(a).Some? && b in Names(Beats(Lookup(a).value))
  {
    if a == b then Draw
    else match Lookup(a)
      case None => Lose
      case Some(e) => if b in Names(Beats(e)) then Win else Lose
  }

  /** The curated win descriptions, keyed by (winner, loser). */
  function Description(w: Element, l: Element): Option<string> {
    match (w, l)
    case (Rock, Scissors) => Some("Rock crushes Scissors!")
    case (Rock, Lizard) => Some("Rock crushes Lizard!")
    case (Rock, Fire) => Some("Rock smothers Fire!")
    case (Paper, Rock) => Some("Paper covers Rock!")
    case (Paper, Air) => Some("Paper catches Air!")
    case (Paper, Water) => Some("Paper absorbs Water!")
    case (Scissors, Paper) => Some("Scissors cuts Paper!")
    case (Scissors, Air) => Some("Scissors cuts through Air!")
    case (Scissors, Lizard) => Some("Scissors decapitates Lizard!")
    case (Fire, Paper) => Some("Fire burns Paper!")
    case (Fire, Scissors) => Some("Fire melts Scissors!")
    case (Fire, Air) => Some("Fire consumes Air!")
    case (Fire, Lizard) => Some("Fire roasts Lizard!")
    case (Water, Fire) => Some("Water extinguishes Fire!")
    case (Water, Rock) => Some("Water erodes Rock!")
    case (Water, Lizard) => Some("Water drowns Lizard!")
    case (Water, Gun) => Some("Water rusts Gun!")
    case (Air, Fire) => Some("Air suffocates Fire!")
    case (Air, Rock) => Some("Air erodes Rock!")
    case (Air, Water) => Some("Air evaporates Water!")
    case (Lizard, Paper) => Some("Lizard eats Paper!")
    case (Lizard, Air) => Some("Lizard breathes Air!")
    case (Lizard, Lightning) => Some("Lizard grounds Lightning!")
    case (Gun, Rock) => Some("Gun shatters Rock!")
    case (Gun, Scissors) => Some("Gun destroys Scissors!")
    case (Gun, Fire) => Some("Gun blows out Fire!")
    case (Gun, Lizard) => Some("Gun shoots Lizard!")
    case (Gun, Air) => Some("Gun pierces Air!")
    case (Gun, Lightning) => Some("Gun conducts Lightning!")
    case (Lightning, Water) => Some("Lightning electrifies Water!")
    case (Lightning, Scissors) => Some("Lightning melts Scissors!")
    case (Lightning, Gun) => Some("Lightning magnetizes Gun!")
    case (Lightning, Fire) => Some("Lightning outshines Fire!")
    case (Shield, Gun) => Some("Shield blocks Gun!")
    case (Shield, Rock) => Some("Shield deflects Rock!")
    case (Shield, Scissors) => Some("Shield blocks Scissors!")
    case (Shield, Lightning) => Some("Shield grounds Lightning!")
    case _ => None
  }

  /** The curated text for a pair of keys, when the pair has one. */
  function CuratedReason(winner: string, loser: string): Option<string> {
    match (Lookup(winner), Lookup(loser))
    case (Some(w), Some(l)) => Description(w, l)
    case _ => None
  }

  /** The emoji of a key, or the empty string for an unknown key. */
  function EmojiOf(name: string): string {
    match Lookup(name)
    case Some(e) => Emoji(e)
    case None => ""
  }

  /**
   * Why `winner` beat `loser`: the curated text for the pair, or else a
   * generated "<emoji> <Winner> beats <Loser>!".
   */
  function GetWinReason(winner: string, loser: string): (r: string)
    ensures Lookup(winner).Some? && Lookup(loser).Some? && Description(Lookup(winner).value, Lookup(loser).value).Some? ==>
              r == Description(Lookup(winner).value, Lookup(loser).value).value
    ensures !(Lookup(winner).Some? && Lookup(loser).Some? && Description(Lookup(winner).value, Lookup(loser).value).Some?) ==>
              r == EmojiOf(winner) + " " + Capitalize(winner) + " beats " + Capitalize(loser) + "!"
  {
    match CuratedReason(winner, loser)
    case Some(text) => text
    case None => EmojiOf(winner) + " " + Capitalize(winner) + " beats " + Capitalize(loser) + "!"
  }
}

=== FILE: game_ai.dfy ===
/**
 * The deterministic parts of the single-player opponent: the capped history
 * of the player's choices, resetting it, and the search for an element that
 * beats a predicted choice.
 */
module GameAi {
  import opened Common
  import opened Elements
  import ElementRules

  /** Once the history grows past this many entries it is truncated. */
  const HistoryCap: nat := 100

  /** How many of the most recent entries survive a truncation. */
  const HistoryKeep: nat := 50

  /** How many recent moves the pattern predictor looks at. */
  const PatternLength: nat := 5

  datatype Opponent = Opponent(difficulty: string, history: seq<string>, patternLength: nat)

  /** A fresh opponent of the given difficulty with an empty history. */
  function NewOpponent(difficulty: string): (r: Opponent)
    ensures r.history == [] && r.difficulty == difficulty && r.patternLength == PatternLength
  {
    Opponent(difficulty, [], PatternLength)
  }

  /**
   * Appends the player's choice; if the history then holds more than 100
   * entries, only the last 50 are kept.
   */
  function AddToHistory(history: seq<string>, choice: string): (r: seq<string>)
    ensures |r| > 0 && r[|r| - 1] == choice
    ensures |r| <= HistoryCap
    ensures |history| < HistoryCap ==> r == history + [choice]
    ensures |history| >= HistoryCap ==> r == (history + [choice])[|history| + 1 - HistoryKeep..]
  {
    var extended := history + [choice];
    if |extended| > HistoryCap then extended[|extended| - HistoryKeep..]
    else
      assert extended == extended[0..];
      extended
  }

  /** Records one choice of the player in the opponent's history. */
  function Record(ai: Opponent, choice: string): (r: Opponent)
    ensures r.difficulty == ai.difficulty && r.patternLength == ai.patternLength
    ensures r.history == AddToHistory(ai.history, choice)
  {
    ai.(history := AddToHistory(ai.history, choice))
  }

  /** Forgets the history and nothing else. */
  function Reset(ai: Opponent): (r: Opponent)
    ensures r.history == []
    ensures r.difficulty == ai.difficulty && r.patternLength == ai.patternLength
  {
    ai.(history := [])
  }

  /**
   * Whatever the history held before, after a run of at most 50 choices it
   * ends with exactly those choices, in order: truncation never drops a
   * move of the run. (It is never longer than the cap by `AddToHistory`.)
   */
  lemma HistoryEndsWithRecent(ai: Opponent, choices: seq<string>)
    requires |choices| <= HistoryKeep
    ensures var h := RecordAll(ai, choices).history;
      |choices| <= |h| && h[|h| - |choices|..] == choices
  {
    assert ai.history[|ai.history|..] == [];
    RunExtendsRecent(ai, [], choices);
    assert [] + choices == choices;
  }

  /**
   * A history that ends with `prefix` ends with `prefix + choices` after the
   * run, as long as the two together are at most 50 moves.
   */
  lemma {:induction false} RunExtendsRecent(ai: Opponent, prefix: seq<string>, choices: seq<string>)
    requires |prefix| + |choices| <= HistoryKeep
    requires |prefix| <= |ai.history| && ai.history[|ai.history| - |prefix|..] == prefix
    ensures var h := RecordAll(ai, choices).history;
      |prefix| + |choices| <= |h| && h[|h| - |prefix| - |choices|..] == prefix + choices
    decreases |choices|
  {
    if |choices| == 0 {
      assert prefix + choices == prefix;
    } else {
      var next, longer, rest := Record(ai, choices[0]), prefix + [choices[0]], choices[1..];
      AddKeepsRecent(ai.history, prefix, choices[0]);
      RunExtendsRecent(next, longer, rest);
      var h := RecordAll(next, rest).history;
      assert h == RecordAll(ai, choices).history;
      assert |h| - |longer| - |rest| == |h| - |prefix| - |choices|;
      assert longer + rest == prefix + choices;
    }
  }

  /** One append keeps a recent run of fewer than 50 moves at the end, now followed by the new move. */
  lemma AddKeepsRecent(history: seq<string>, recent: seq<string>, choice: string)
    requires |recent| < HistoryKeep && |recent| <= |history|
    requires history[|history| - |recent|..] == recent
    ensures var r := AddToHistory(history, choice);
      |recent| + 1 <= |r| && r[|r| - |recent| - 1..] == recent + [choice]
  {
    var extended := history + [choice];
    var n := |recent|;
    assert extended[|extended| - n - 1..] == recent + [choice];
    if |history| >= HistoryCap {
      var r := extended[|history| + 1 - HistoryKeep..];
      assert r[|r| - n - 1..] == extended[|extended| - n - 1..];
    }
  }

  /** Records a run of choices, oldest first. */
  function RecordAll(ai: Opponent, choices: seq<string>): Opponent
    decreases |choices|
  {
    if |choices| == 0 then ai
    else RecordAll(Record(ai, choices[0]), choices[1..])
  }

  /**
   * The first available element whose beats list holds `target`; None where
   * the source falls back to a random choice among the available elements.
   */
  method FindCounter(target: string, available: seq<Element>) returns (r: Option<Element>)
    ensures r.Some? <==> exists e :: e in available && target in Names(Beats(e))
    ensures r.Some? ==> exists k :: 0 <= k < |available| && available[k] == r.value
                          && target in Names(Beats(available[k]))
                          && forall j :: 0 <= j < k ==> target !in Names(Beats(available[j]))
  {
    var i := 0;
    while i < |available|
      invariant 0 <= i <= |available|
      invariant forall j :: 0 <= j < i ==> target !in Names(Beats(available[j]))
    {
      if target in Names(Beats(available[i])) {
        return Some(available[i]);
      }
      i := i + 1;
    }
    return None;
  }

  /** Nothing beats shield, so a predicted shield never has a counter and always falls back to chance. */
  lemma ShieldHasNoCounter(e: Element)
    ensures Name(Shield) !in Names(Beats(e))
  {
    ElementRules.ShieldUnbeaten(e);
    NameInNames(Shield, Beats(e));
  }
}

=== FILE: match_rules.dfy ===
/**
 * Properties of the online match: how a round is scored and when the match
 * ends, the score invariant each transition keeps (and the one transition
 * that breaks it), the ready handshake, and the liveness check.
 */
module MatchRules {
  import opened Common
  import opened Elements
  import ElementRules
  import opened OnlineMatch

  /**
   * The first-to-three invariant: scores are never negative; below three
   * unless the match is finished; and a finished match has exactly one
   * slot at three, which is the recorded winner.
   */
  ghost predicate ScoresValid(g: Game) {
    && 0 <= g.player1.score && 0 <= g.player2.score
    && (g.status != Finished ==> g.player1.score < WinningScore && g.player2.score < WinningScore)
    && (g.status == Finished ==>
          || (g.player1.score == WinningScore && g.player2.score < WinningScore && g.winner == Some(g.player1.name))
          || (g.player2.score == WinningScore && g.player1.score < WinningScore && g.winner == Some(g.player2.name)))
  }

  /** Equal elements draw: no score changes and the reason is the draw text. */
  lemma ResolveRoundDraw(g: Game)
    requires BothChose(g) && g.player1.choice == g.player2.choice
    ensures var r := ResolveRound(g);
      && r.player1.score == g.player1.score && r.player2.score == g.player2.score
      && r.roundResult == Some(RoundResult(g.player1.choice.value, g.player2.choice.value, None, DrawReason))
  {
    var c := g.player1.choice.value;
    ElementRules.DetermineWinnerOnElements(c, c);
  }

  /** Slot 1's element defeating slot 2's scores for slot 1, with the curated text. */
  lemma ResolveRoundFirstWins(g: Game)
    requires BothChose(g)
    requires g.player1.choice != g.player2.choice && Defeats(g.player1.choice.value, g.player2.choice.value)
    ensures var r := ResolveRound(g);
      var c1 := g.player1.choice.value;
      var c2 := g.player2.choice.value;
      && r.player1.score == g.player1.score + 1 && r.player2.score == g.player2.score
      && Description(c1, c2).Some?
      && r.roundResult == Some(RoundResult(c1, c2, Some(g.player1.name), Description(c1, c2).value))
  {
    var c1 := g.player1.choice.value;
    var c2 := g.player2.choice.value;
    ElementRules.DetermineWinnerOnElements(c1, c2);
    ElementRules.CuratedExactlyOnBeats(c1, c2);
    ElementRules.WinReasonCurated(c1, c2);
  }

  /**
   * In every other case slot 2 scores, whether or not slot 2's element
   * defeats slot 1's, and the reason is told from slot 2's element.
   */
  lemma ResolveRoundSecondWins(g: Game)
    requires BothChose(g)
    requires g.player1.choice != g.player2.choice && !Defeats(g.player1.choice.value, g.player2.choice.value)
    ensures var r := ResolveRound(g);
      var c1 := g.player1.choice.value;
      var c2 := g.player2.choice.value;
      && r.player1.score == g.player1.score && r.player2.score == g.player2.score + 1
      && r.roundResult == Some(RoundResult(c1, c2, Some(g.player2.name), GetWinReason(Name(c2), Name(c1))))
  {
    var c1 := g.player1.choice.value;
    var c2 := g.player2.choice.value;
    ElementRules.DetermineWinnerOnElements(c1, c2);
  }

  /**
   * After resolution the match is finished exactly when a slot has reached
   * three, with slot 1 checked first; otherwise the round is complete and the
   * winner field is untouched.
   */
  lemma ResolveRoundStatus(g: Game)
    requires BothChose(g)
    ensures var r := ResolveRound(g);
      && (r.status == Finished <==> r.player1.score >= WinningScore || r.player2.score >= WinningScore)
      && (r.status != Finished ==> r.status == RoundComplete && r.winner == g.winner)
      && (r.player1.score >= WinningScore ==> r.winner == Some(g.player1.name))
      && (r.player1.score < WinningScore <= r.player2.score ==> r.winner == Some(g.player2.name))
      && r.player1.score + r.player2.score <= g.player1.score + g.player2.score + 1
      && r.player1.score >= g.player1.score && r.player2.score >= g.player2.score
  {
  }

  /** Resolving from a match where both scores are below three keeps the invariant. */
  lemma ResolveRoundKeepsScores(g: Game)
    requires BothChose(g)
    requires 0 <= g.player1.score < WinningScore && 0 <= g.player2.score < WinningScore
    ensures ScoresValid(ResolveRound(g))
  {
    ResolveRoundStatus(g);
  }

  /** The choice that completes a pair resolves the round; until then nothing but the choice changes. */
  lemma MakeChoiceEffect(games: map<string, Game>, gameId: string, playerId: string, choice: string)
    requires gameId in games && Active(games[gameId].status) && ValidChoice(games[gameId].mode, choice)
    ensures var g := games[gameId];
      var chosen := WithCallerSlot(g, playerId, CallerSlot(g, playerId).(choice := Lookup(Lower(choice))));
      var g' := MakeChoice(games, gameId, playerId, choice).value.game;
      && (BothChose(chosen) ==> g' == ResolveRound(chosen))
      && (!BothChose(chosen) ==>
            g' == chosen && g'.status == g.status
            && g'.player1.score == g.player1.score && g'.player2.score == g.player2.score)
  {
  }

  /** A submission into a round that is already resolved resolves it again and can score again. */
  lemma ResubmissionReResolves(games: map<string, Game>, gameId: string, playerId: string, choice: string)
    requires gameId in games && games[gameId].status == RoundComplete && BothChose(games[gameId])
    requires ValidChoice(games[gameId].mode, choice)
    ensures var r := MakeChoice(games, gameId, playerId, choice);
      var g := games[gameId];
      && r.Ok? && !r.value.waitingForOpponent && r.value.game.roundResult.Some?
      && r.value.game == ResolveRound(WithCallerSlot(g, playerId, CallerSlot(g, playerId).(choice := Lookup(Lower(choice)))))
      && r.value.game.currentRound == g.currentRound
  {
    var g := games[gameId];
    var chosen := WithCallerSlot(g, playerId, CallerSlot(g, playerId).(choice := Lookup(Lower(choice))));
    InNamesLookup(Lower(choice), ElementsForMode(g.mode));
    assert BothChose(chosen);
    MakeChoiceEffect(games, gameId, playerId, choice);
    ResolveRoundStatus(chosen);
  }

  /**
   * Re-resolution scores again within the same round: after rock beat
   * scissors, slot 2 submitting scissors once more gives slot 1 a second
   * point while the round number stays 1.
   */
  lemma ResubmissionScoresTwice(gameId: string, id1: string, name1: string, id2: string, name2: string, now: int)
    requires id1 != id2
    ensures var g := CreateGame(gameId, Classic, id1, name1, id2, name2, now);
      var r1 := MakeChoice(map[gameId := g], gameId, id1, "rock");
      && r1.Ok?
      && var r2 := MakeChoice(map[gameId := r1.value.game], gameId, id2, "scissors");
      && r2.Ok? && r2.value.game.player1.score == 1
      && var r3 := MakeChoice(map[gameId := r2.value.game], gameId, id2, "scissors");
      && r3.Ok? && r3.value.game.player1.score == 2 && r3.value.game.player2.score == 0
      && r3.value.game.currentRound == 1
  {
    RockBeatsScissorsScenario(gameId, id1, name1, id2, name2, now);
    var g := CreateGame(gameId, Classic, id1, name1, id2, name2, now);
    var g1 := MakeChoice(map[gameId := g], gameId, id1, "rock").value.game;
    var g2 := MakeChoice(map[gameId := g1], gameId, id2, "scissors").value.game;
    assert Lower("scissors") == "scissors";
    assert ElementsForMode(g2.mode) == ClassicElements;
    NameInNames(Scissors, ClassicElements);
    LookupName(Scissors);
    MakeChoiceEffect(map[gameId := g2], gameId, id2, "scissors");
    ResolveRoundFirstWins(WithCallerSlot(g2, id2, CallerSlot(g2, id2).(choice := Some(Scissors))));
  }

  /** A submission keeps the score invariant. */
  lemma MakeChoiceKeepsScores(games: map<string, Game>, gameId: string, playerId: string, choice: string)
    requires gameId in games && ScoresValid(games[gameId])
    requires Active(games[gameId].status) && ValidChoice(games[gameId].mode, choice)
    ensures ScoresValid(MakeChoice(games, gameId, playerId, choice).value.game)
  {
    var g := games[gameId];
    var chosen := WithCallerSlot(g, playerId, CallerSlot(g, playerId).(choice := Lookup(Lower(choice))));
    MakeChoiceEffect(games, gameId, playerId, choice);
    if BothChose(chosen) {
      ResolveRoundKeepsScores(chosen);
    }
  }

  /** A finished or forfeited match accepts no further choices. */
  lemma EndedMatchRejectsChoices(games: map<string, Game>, gameId: string, playerId: string, choice: string)
    requires gameId in games && Ended(games[gameId].status)
    ensures MakeChoice(games, gameId, playerId, choice) == Err(NotActive)
  {
  }

  /** A player id other than slot 1's, known or not, submits for slot 2. */
  lemma UnknownIdPlaysSlot2(games: map<string, Game>, gameId: string, playerId: string, choice: string)
    requires gameId in games && Active(games[gameId].status) && ValidChoice(games[gameId].mode, choice)
    requires playerId != games[gameId].player1.id
    ensures MakeChoice(games, gameId, playerId, choice).value.game.player2.choice == Lookup(Lower(choice))
    ensures MakeChoice(games, gameId, playerId, choice).value.game.player1.choice == games[gameId].player1.choice
  {
  }

  /** A new match satisfies the invariant. */
  lemma CreatedGameValid(gameId: string, mode: Mode, id1: string, name1: string, id2: string, name2: string, now: int)
    ensures ScoresValid(CreateGame(gameId, mode, id1, name1, id2, name2, now))
  {
  }

  /** Acknowledging the next round keeps the invariant, as long as the match is not finished. */
  lemma NextRoundKeepsScores(games: map<string, Game>, gameId: string, playerId: string, now: int)
    requires gameId in games && ScoresValid(games[gameId]) && games[gameId].status != Finished
    ensures ScoresValid(NextRound(games, gameId, playerId, now).value.game)
  {
  }

  /**
   * Having no status check, the handshake reopens a finished match: once
   * both players acknowledge, it is playing again with a slot already at
   * three points, which the invariant forbids.
   */
  lemma NextRoundReopensFinishedMatch(games: map<string, Game>, gameId: string, playerId: string, now: int)
    requires gameId in games && ScoresValid(games[gameId]) && games[gameId].status == Finished
    requires OpponentSlot(games[gameId], playerId).ready
    ensures NextRound(games, gameId, playerId, now).value.game.status == Playing
    ensures !ScoresValid(NextRound(games, gameId, playerId, now).value.game)
  {
  }

  /**
   * Nor is a forfeited match protected: the handshake sets it playing again
   * while the recorded winner and forfeiting player stay.
   */
  lemma NextRoundReopensForfeitedMatch(games: map<string, Game>, gameId: string, playerId: string, now: int)
    requires gameId in games && games[gameId].status == Forfeit
    requires OpponentSlot(games[gameId], playerId).ready
    ensures var g' := NextRound(games, gameId, playerId, now).value.game;
      && g'.status == Playing
      && g'.winner == games[gameId].winner && g'.forfeitBy == games[gameId].forfeitBy
      && g'.currentRound == games[gameId].currentRound + 1
  {
  }

  /** Acknowledging twice before the opponent does is the same as acknowledging once, and starts no round. */
  lemma NextRoundIdempotent(games: map<string, Game>, gameId: string, playerId: string, now: int, later: int)
    requires gameId in games && !OpponentSlot(games[gameId], playerId).ready
    ensures var once := NextRound(games, gameId, playerId, now).value.game;
      && once.currentRound == games[gameId].currentRound
      && NextRound(games[gameId := once], gameId, playerId, later).value.game == once
  {
  }

  /** The opponent's acknowledgement after the caller's starts exactly one new round. */
  lemma HandshakeAdvancesOnce(games: map<string, Game>, gameId: string, id1: string, id2: string, now: int)
    requires gameId in games
    requires games[gameId].player1.id == id1 && id2 != id1
    requires !games[gameId].player1.ready && !games[gameId].player2.ready
    ensures var first := NextRound(games, gameId, id1, now).value.game;
      var second := NextRound(games[gameId := first], gameId, id2, now).value.game;
      && first.currentRound == games[gameId].currentRound
      && second.currentRound == games[gameId].currentRound + 1
      && second.status == Playing && !second.player1.ready && !second.player2.ready
  {
  }

  /** A forfeit keeps the invariant. */
  lemma ForfeitKeepsScores(games: map<string, Game>, gameId: string, forfeitPlayerId: string)
    requires gameId in games && ScoresValid(games[gameId])
    requires ForfeitGame(games, gameId, forfeitPlayerId).Ok?
    requires ForfeitGame(games, gameId, forfeitPlayerId).value.Forfeited?
    ensures ScoresValid(ForfeitGame(games, gameId, forfeitPlayerId).value.game)
  {
  }

  /** The state poll keeps the invariant. */
  lemma PollKeepsScores(games: map<string, Game>, gameId: string, playerId: string, now: int)
    requires gameId in games && ScoresValid(games[gameId])
    ensures ScoresValid(GetGameState(games, gameId, playerId, now).value)
  {
  }

  /** An opponent that has never polled is never declared disconnected. */
  lemma NeverSeenNeverForfeits(games: map<string, Game>, gameId: string, playerId: string, now: int)
    requires gameId in games && OpponentSlot(games[gameId], playerId).lastSeen.None?
    ensures GetGameState(games, gameId, playerId, now).value.status == games[gameId].status
  {
  }

  /**
   * Slot 2 last polled at time `t`; slot 1 polls eleven seconds later: the
   * match is forfeited by slot 2 and won by slot 1.
   */
  lemma DisconnectScenario(g: Game, t: int)
    requires Active(g.status) && g.player2.lastSeen == Some(t)
    ensures var r := GetGameState(map[g.gameId := g], g.gameId, g.player1.id, t + 11).value;
      && r.status == Forfeit
      && r.winner == Some(g.player1.name)
      && r.forfeitBy == Some(g.player2.name)
      && r.player1.lastSeen == Some(t + 11)
  {
  }

  /**
   * In a new classic match slot 1 submits "rock" and slot 2 "scissors":
   * slot 1 takes the round with "Rock crushes Scissors!", scores one, and
   * the round is complete.
   */
  lemma RockBeatsScissorsScenario(gameId: string, id1: string, name1: string, id2: string, name2: string, now: int)
    requires id1 != id2
    ensures var g := CreateGame(gameId, Classic, id1, name1, id2, name2, now);
      var r1 := MakeChoice(map[gameId := g], gameId, id1, "rock");
      && r1.Ok? && r1.value.waitingForOpponent
      && var r2 := MakeChoice(map[gameId := r1.value.game], gameId, id2, "scissors");
      && r2.Ok? && !r2.value.waitingForOpponent
      && r2.value.game.status == RoundComplete
      && r2.value.game.player1.score == 1 && r2.value.game.player2.score == 0
      && r2.value.game.roundResult == Some(RoundResult(Rock, Scissors, Some(name1), "Rock crushes Scissors!"))
  {
    var g := CreateGame(gameId, Classic, id1, name1, id2, name2, now);
    assert Lower("rock") == "rock";
    assert Lower("scissors") == "scissors";
    assert ElementsForMode(g.mode) == ClassicElements;
    NameInNames(Rock, ClassicElements);
    NameInNames(Scissors, ClassicElements);
    LookupName(Rock);
    LookupName(Scissors);
    var r1 := MakeChoice(map[gameId := g], gameId, id1, "rock");
    MakeChoiceEffect(map[gameId := g], gameId, id1, "rock");
    var g1 := r1.value.game;
    MakeChoiceEffect(map[gameId := g1], gameId, id2, "scissors");
    ResolveRoundFirstWins(WithCallerSlot(g1, id2, CallerSlot(g1, id2).(choice := Some(Scissors))));
    ResolveRoundStatus(WithCallerSlot(g1, id2, CallerSlot(g1, id2).(choice := Some(Scissors))));
    ElementRules.CuratedReasonExample();
  }
}

=== FILE: matchmaking.dfy ===
/**
 * The matchmaking queue: players join and poll with `Join`, leave with
 * `Leave`. The queue is a sequence of entries in creation-time order, the
 * order in which the store returns them. Time is a whole number of seconds;
 * the id of a match created by a pairing and the mode drawn for it are
 * supplied by the caller.
 */
module Matchmaking {
  import opened Common
  import opened Elements
  import opened OnlineMatch

  /** Seconds an entry may sit in the queue before the next join deletes it. */
  const QueueTimeout: int := 60

  datatype QueueStatus = Searching | Matched | Expired

  datatype QueueEntry = QueueEntry(
    playerId: string,
    playerName: string,
    mode: string,
    status: QueueStatus,
    matchedGameId: Option<string>,
    createdAt: int)

  type Queue = seq<QueueEntry>

  /** No player id appears twice (the store's uniqueness constraint). */
  ghost predicate UniqueIds(q: Queue) {
    forall i, j :: 0 <= i < |q| && 0 <= j < |q| && q[i].playerId == q[j].playerId ==> i == j
  }

  /** Entries appear in order of creation time. */
  ghost predicate Sorted(q: Queue) {
    forall i, j :: 0 <= i < j < |q| ==> q[i].createdAt <= q[j].createdAt
  }

  /** An entry created more than the timeout before `now`. */
  predicate IsStale(e: QueueEntry, now: int) {
    e.createdAt < now - QueueTimeout
  }

  /** The filter that keeps entries that are not stale at `now`. */
  function NotStale(now: int): QueueEntry -> bool {
    (e: QueueEntry) => !IsStale(e, now)
  }

  /** The filter that keeps entries of every player but one. */
  function OtherThan(playerId: string): QueueEntry -> bool {
    (e: QueueEntry) => e.playerId != playerId
  }

  /** Deletes every stale entry; the only way entries expire. */
  function Purge(q: Queue, now: int): (r: Queue)
    ensures forall e :: e in r <==> e in q && !IsStale(e, now)
  {
    Filter(q, NotStale(now))
  }

  /** Deletes every entry of the given player. */
  function Without(q: Queue, playerId: string): (r: Queue)
    ensures forall e :: e in r <==> e in q && e.playerId != playerId
    ensures (forall i :: 0 <= i < |q| ==> q[i].playerId != playerId) ==> r == q
  {
    if forall i :: 0 <= i < |q| ==> q[i].playerId != playerId then
      FilterKeepsAll(q, OtherThan(playerId));
      Filter(q, OtherThan(playerId))
    else Filter(q, OtherThan(playerId))
  }

  /** The position of the player's entry, if there is one. */
  function FindPlayer(q: Queue, playerId: string): (r: Option<nat>)
    ensures r.Some? ==> r.value < |q| && q[r.value].playerId == playerId
    ensures r.None? <==> forall i :: 0 <= i < |q| ==> q[i].playerId != playerId
  {
    FirstIndex(q, (e: QueueEntry) => e.playerId == playerId, 0)
  }

  /** An entry some other player's join has already paired, with a non-empty match id. */
  predicate AlreadyMatched(e: QueueEntry) {
    e.status == Matched && e.matchedGameId.Some? && e.matchedGameId.value != ""
  }

  /** An entry the caller may be paired with: searching, and not the caller's own. */
  predicate Eligible(e: QueueEntry, playerId: string) {
    e.status == Searching && e.playerId != playerId
  }

  /** The oldest eligible entry: the first in creation order. */
  function FindPartner(q: Queue, playerId: string): (r: Option<nat>)
    ensures r.Some? ==> r.value < |q| && Eligible(q[r.value], playerId)
    ensures r.Some? ==> forall j :: 0 <= j < r.value ==> !Eligible(q[j], playerId)
    ensures r.None? <==> forall j :: 0 <= j < |q| ==> !Eligible(q[j], playerId)
  {
    FirstIndex(q, (e: QueueEntry) => Eligible(e, playerId), 0)
  }

  /**
   * Puts the caller at the back of the queue: an existing entry gets its
   * timestamp refreshed and keeps everything else; a new caller gets a
   * searching entry.
   */
  function Enqueue(q: Queue, playerId: string, playerName: string, mode: string, now: int): (r: Queue)
    ensures |r| > 0 && r[|r| - 1].playerId == playerId && r[|r| - 1].createdAt == now
    ensures r[..|r| - 1] == Without(q, playerId)
    ensures FindPlayer(q, playerId).Some? ==> r[|r| - 1] == q[FindPlayer(q, playerId).value].(createdAt := now)
    ensures FindPlayer(q, playerId).None? ==> r[|r| - 1] == QueueEntry(playerId, playerName, mode, Searching, None, now)
  {
    var entry := match FindPlayer(q, playerId)
      case Some(i) => q[i].(createdAt := now)
      case None => QueueEntry(playerId, playerName, mode, Searching, None, now);
    Without(q, playerId) + [entry]
  }

  /** Marks the partner's entry and the caller's entries as matched into `gameId`. */
  function MarkMatched(q: Queue, partner: nat, playerId: string, gameId: string): (r: Queue)
    requires partner < |q|
    ensures |r| == |q|
    ensures forall i :: 0 <= i < |q| ==> r[i].playerId == q[i].playerId && r[i].createdAt == q[i].createdAt
    ensures forall i :: 0 <= i < |q| && (i == partner || q[i].playerId == playerId) ==>
              r[i] == q[i].(status := Matched, matchedGameId := Some(gameId))
    ensures forall i :: 0 <= i < |q| && i != partner && q[i].playerId != playerId ==> r[i] == q[i]
  {
    seq(|q|, i requires 0 <= i < |q| =>
      if i == partner || q[i].playerId == playerId then q[i].(status := Matched, matchedGameId := Some(gameId))
      else q[i])
  }

  /**
   * The filter that keeps searching entries of a mode created before the
   * position query's clock reading. That reading is taken after the
   * caller's entry is stamped with `now`, so in whole seconds it keeps
   * entries created at or before `now`.
   */
  function AheadOf(mode: string, now: int): QueueEntry -> bool {
    (e: QueueEntry) => e.mode == mode && e.status == Searching && e.createdAt <= now
  }

  /** The filter that keeps searching entries. */
  function IsSearching(): QueueEntry -> bool {
    (e: QueueEntry) => e.status == Searching
  }

  /** How many searching entries of the mode were created by `now`. */
  function QueuePosition(q: Queue, mode: string, now: int): (r: nat)
    ensures r <= |q|
    ensures r == |set i | 0 <= i < |q| && q[i].mode == mode && q[i].status == Searching && q[i].createdAt <= now|
    ensures r == 0 <==> forall i :: 0 <= i < |q| ==> !(q[i].mode == mode && q[i].status == Searching && q[i].createdAt <= now)
  {
    FilterEmptyIff(q, AheadOf(mode, now));
    FilterCountsIndices(q, AheadOf(mode, now));
    assert IndicesWhere(q, AheadOf(mode, now))
        == set i | 0 <= i < |q| && q[i].mode == mode && q[i].status == Searching && q[i].createdAt <= now;
    |Filter(q, AheadOf(mode, now))|
  }

  /** How many entries are searching. */
  function PlayersOnline(q: Queue): (r: nat)
    ensures r <= |q|
    ensures r == |set i | 0 <= i < |q| && q[i].status == Searching|
    ensures r == 0 <==> forall i :: 0 <= i < |q| ==> q[i].status != Searching
  {
    FilterEmptyIff(q, IsSearching());
    FilterCountsIndices(q, IsSearching());
    assert IndicesWhere(q, IsSearching()) == set i | 0 <= i < |q| && q[i].status == Searching;
    |Filter(q, IsSearching())|
  }

  datatype JoinReply =
    | JoinMatched(gameId: string)
    | JoinSearching(queuePosition: nat, playersOnline: nat)

  /** The queue after the call, the match it created (if any), and the reply. */
  datatype JoinResult = JoinResult(queue: Queue, game: Option<Game>, reply: JoinReply)

  /**
   * A join (or a poll while waiting). Stale entries are deleted first. A
   * caller whose entry was already paired gets that match id back and
   * nothing else happens. Otherwise the caller is put at the back of the
   * queue and paired with the oldest searching entry of another player, of
   * any mode: the partner takes slot 1 and the caller slot 2 of a new match
   * in the drawn mode, and both entries are marked matched. With no partner
   * the reply reports the caller's position and the number searching.
   */
  function Join(q: Queue, playerId: string, playerName: string, mode: string, now: int,
                newGameId: string, randomMode: Mode): (r: JoinResult)
    ensures r.game.Some? ==> r.reply == JoinMatched(newGameId) && r.game.value.gameId == newGameId
    ensures r.reply.JoinSearching? ==> r.game.None?
  {
    var purged := Purge(q, now);
    var existing := FindPlayer(purged, playerId);
    if existing.Some? && AlreadyMatched(purged[existing.value]) then
      JoinResult(purged, None, JoinMatched(purged[existing.value].matchedGameId.value))
    else
      var queued := Enqueue(purged, playerId, playerName, mode, now);
      match FindPartner(queued, playerId)
      case Some(k) =>
        var partner := queued[k];
        var game := CreateGame(newGameId, randomMode, partner.playerId, partner.playerName, playerId, playerName, now);
        var marked := MarkMatched(queued, k, playerId, newGameId);
        JoinResult(marked, Some(game), JoinMatched(newGameId))
      case None =>
        JoinResult(queued, None, JoinSearching(QueuePosition(queued, mode, now), PlayersOnline(queued)))
  }

  /** Leaving deletes the caller's entry; leaving with no entry is not an error. */
  function Leave(q: Queue, playerId: string): (r: Queue)
    ensures forall e :: e in r <==> e in q && e.playerId != playerId
    ensures (forall i :: 0 <= i < |q| ==> q[i].playerId != playerId) ==> r == q
  {
    Without(q, playerId)
  }
}

=== FILE: online_match.dfy ===
/**
 * The online player-versus-player match: its record, and the transitions
 * the polling clients drive — submitting a choice, acknowledging the next
 * round, forfeiting, and the state poll that records activity and detects
 * a disconnected opponent. Matches live in a store keyed by match id; every
 * transition returns the updated record (or an error) and leaves writing it
 * back to the caller. Time is a whole number of seconds supplied by the
 * caller.
 */
module OnlineMatch {
  import opened Common
  import opened Elements

  /** Seconds of silence after which a polling player's opponent forfeits. */
  const DisconnectTimeout: int := 10

  /** The score that ends a match: first to three round wins. */
  const WinningScore: int := 3

  /** The stored (and otherwise unused) round limit of a new match. */
  const DefaultMaxRounds: int := 5

  const DrawReason: string := "It's a draw!"

  datatype Status = Waiting | Playing | RoundComplete | Finished | Forfeit

  /** One player's side of a match. */
  datatype Slot = Slot(
    id: string,
    name: string,
    choice: Option<Element>,
    score: int,
    ready: bool,
    lastSeen: Option<int>)

  /** What the last resolved round showed: both choices, who won it, and why. */
  datatype RoundResult = RoundResult(
    player1Choice: Element,
    player2Choice: Element,
    roundWinner: Option<string>,
    reason: string)

  datatype Game = Game(
    gameId: string,
    mode: string,
    player1: Slot,
    player2: Slot,
    currentRound: int,
    maxRounds: int,
    status: Status,
    winner: Option<string>,
    forfeitBy: Option<string>,
    roundResult: Option<RoundResult>,
    roundStartTime: Option<int>)

  datatype Error = NotFound | NotActive | InvalidChoice

  datatype Result<T> = Ok(value: T) | Err(error: Error)

  /** The statuses in which choices are accepted and liveness is checked. */
  predicate Active(s: Status) {
    s == Playing || s == RoundComplete
  }

  /** The statuses a forfeit request treats as already over. */
  predicate Ended(s: Status) {
    s == Finished || s == Forfeit
  }

  /** A player id addresses slot 1 only when it equals slot 1's id; any other id addresses slot 2. */
  predicate IsPlayer1(g: Game, playerId: string) {
    g.player1.id == playerId
  }

  /** The slot a player id addresses. */
  function CallerSlot(g: Game, playerId: string): Slot {
    if IsPlayer1(g, playerId) then g.player1 else g.player2
  }

  /** The slot opposite the one a player id addresses. */
  function OpponentSlot(g: Game, playerId: string): Slot {
    if IsPlayer1(g, playerId) then g.player2 else g.player1
  }

  /** Replaces the slot a player id addresses. */
  function WithCallerSlot(g: Game, playerId: string, s: Slot): (r: Game)
    requires s.id == CallerSlot(g, playerId).id
    ensures CallerSlot(r, playerId) == s && OpponentSlot(r, playerId) == OpponentSlot(g, playerId)
    ensures r.(player1 := g.player1, player2 := g.player2) == g
  {
    if IsPlayer1(g, playerId) then g.(player1 := s) else g.(player2 := s)
  }

  predicate BothChose(g: Game) {
    g.player1.choice.Some? && g.player2.choice.Some?
  }

  /** A fresh slot: no choice, no score, not ready, never seen. */
  function NewSlot(id: string, name: string): Slot {
    Slot(id, name, None, 0, false, None)
  }

  /** The match created when two queue entries pair: playing, round 1, both scores 0. */
  function CreateGame(gameId: string, mode: Mode, player1Id: string, player1Name: string,
                      player2Id: string, player2Name: string, now: int): (g: Game)
    ensures g.gameId == gameId && g.mode == ModeName(mode)
    ensures g.player1.id == player1Id && g.player1.name == player1Name
    ensures g.player2.id == player2Id && g.player2.name == player2Name
    ensures g.status == Playing && g.currentRound == 1 && g.roundStartTime == Some(now)
    ensures g.player1.score == 0 && g.player2.score == 0
    ensures !g.player1.ready && !g.player2.ready
    ensures g.player1.choice.None? && g.player2.choice.None?
    ensures g.player1.lastSeen.None? && g.player2.lastSeen.None?
    ensures g.winner.None? && g.forfeitBy.None? && g.roundResult.None?
    ensures g.maxRounds == DefaultMaxRounds
  {
    Game(gameId, ModeName(mode), NewSlot(player1Id, player1Name), NewSlot(player2Id, player2Name),
         1, DefaultMaxRounds, Playing, None, None, None, Some(now))
  }

  /**
   * Resolves a round once both choices are in: the resolver runs on
   * (player 1, player 2); a win scores for player 1, a loss for player 2;
   * a score of three finishes the match, otherwise the round is complete.
   */
  function ResolveRound(g: Game): (r: Game)
    requires BothChose(g)
    ensures r.player1 == g.player1.(score := r.player1.score)
    ensures r.player2 == g.player2.(score := r.player2.score)
    ensures r.(player1 := g.player1, player2 := g.player2, status := g.status, winner := g.winner,
               roundResult := g.roundResult) == g
  {
    var c1 := g.player1.choice.value;
    var c2 := g.player2.choice.value;
    var outcome := DetermineWinner(Name(c1), Name(c2));
    var p1 := if outcome == Win then g.player1.(score := g.player1.score + 1) else g.player1;
    var p2 := if outcome == Lose then g.player2.(score := g.player2.score + 1) else g.player2;
    var roundWinner := if outcome == Win then Some(p1.name) else if outcome == Lose then Some(p2.name) else None;
    var reason :=
      if outcome == Win then GetWinReason(Name(c1), Name(c2))
      else if outcome == Lose then GetWinReason(Name(c2), Name(c1))
      else DrawReason;
    var scored := g.(player1 := p1, player2 := p2, roundResult := Some(RoundResult(c1, c2, roundWinner, reason)));
    if p1.score >= WinningScore then scored.(status := Finished, winner := Some(p1.name))
    else if p2.score >= WinningScore then scored.(status := Finished, winner := Some(p2.name))
    else scored.(status := RoundComplete)
  }

  /** True when the lower-cased submission names an element of the mode. */
  predicate ValidChoice(mode: string, choice: string) {
    Lower(choice) in Names(ElementsForMode(mode))
  }

  datatype ChoiceReply = ChoiceReply(game: Game, waitingForOpponent: bool)

  /**
   * A player submits a choice. The checks run in order — unknown match,
   * match not active, choice not in the mode — and any failure leaves the
   * match untouched. Otherwise the addressed slot takes the choice, and if
   * both slots now hold one (including a resubmission after the round was
   * already resolved) the round is resolved.
   */
  function MakeChoice(games: map<string, Game>, gameId: string, playerId: string, choice: string): (r: Result<ChoiceReply>)
    ensures gameId !in games ==> r == Err(NotFound)
    ensures gameId in games && !Active(games[gameId].status) ==> r == Err(NotActive)
    ensures gameId in games && Active(games[gameId].status) ==>
              (r == Err(InvalidChoice) <==> !ValidChoice(games[gameId].mode, choice))
    ensures r.Ok? <==> gameId in games && Active(games[gameId].status) && ValidChoice(games[gameId].mode, choice)
    ensures r.Ok? ==>
      var g := games[gameId];
      var g' := r.value.game;
      && Lookup(Lower(choice)).Some?
      && Lookup(Lower(choice)).value in ElementsForMode(g.mode)
      && CallerSlot(g', playerId).choice == Lookup(Lower(choice))
      && OpponentSlot(g', playerId).choice == OpponentSlot(g, playerId).choice
      && (r.value.waitingForOpponent <==> !BothChose(g'))
      && g'.gameId == g.gameId && g'.mode == g.mode && g'.currentRound == g.currentRound
      && g'.player1.id == g.player1.id && g'.player2.id == g.player2.id
      && g'.player1.name == g.player1.name && g'.player2.name == g.player2.name
      && g'.player1.ready == g.player1.ready && g'.player2.ready == g.player2.ready
      && g'.player1.lastSeen == g.player1.lastSeen && g'.player2.lastSeen == g.player2.lastSeen
      && g'.roundStartTime == g.roundStartTime && g'.forfeitBy == g.forfeitBy && g'.maxRounds == g.maxRounds
  {
    if gameId !in games then Err(NotFound)
    else
      var g := games[gameId];
      if !Active(g.status) then Err(NotActive)
      else if !ValidChoice(g.mode, choice) then Err(InvalidChoice)
      else
        InNamesLookup(Lower(choice), ElementsForMode(g.mode));
        var chosen := WithCallerSlot(g, playerId, CallerSlot(g, playerId).(choice := Lookup(Lower(choice))));
        var updated := if BothChose(chosen) then ResolveRound(chosen) else chosen;
        Ok(ChoiceReply(updated, !BothChose(updated)))
  }

  datatype ReadyReply = ReadyReply(game: Game, bothReady: bool)

  /**
   * A player acknowledges the round result. There is no status check. When
   * both slots are ready the next round starts: the round number goes up by
   * one, choices, ready flags and the result are cleared, and the status
   * becomes playing. The reported `bothReady` reads the flags after that
   * reset.
   */
  function NextRound(games: map<string, Game>, gameId: string, playerId: string, now: int): (r: Result<ReadyReply>)
    ensures r.Err? <==> gameId !in games
    ensures r.Err? ==> r.error == NotFound
    ensures r.Ok? ==> !r.value.bothReady
    ensures r.Ok? && OpponentSlot(games[gameId], playerId).ready ==>
      var g := games[gameId];
      var g' := r.value.game;
      && g'.currentRound == g.currentRound + 1
      && g'.status == Playing && g'.roundResult.None? && g'.roundStartTime == Some(now)
      && g'.player1 == g.player1.(choice := None, ready := false)
      && g'.player2 == g.player2.(choice := None, ready := false)
      && g'.winner == g.winner && g'.forfeitBy == g.forfeitBy && g'.mode == g.mode
      && g'.gameId == g.gameId && g'.maxRounds == g.maxRounds
    ensures r.Ok? && !OpponentSlot(games[gameId], playerId).ready ==>
      var g := games[gameId];
      r.value.game == WithCallerSlot(g, playerId, CallerSlot(g, playerId).(ready := true))
  {
    if gameId !in games then Err(NotFound)
    else
      var g := games[gameId];
      var marked := WithCallerSlot(g, playerId, CallerSlot(g, playerId).(ready := true));
      var updated :=
        if marked.player1.ready && marked.player2.ready then
          marked.(currentRound := marked.currentRound + 1,
                  player1 := marked.player1.(choice := None, ready := false),
                  player2 := marked.player2.(choice := None, ready := false),
                  roundResult := None,
                  status := Playing,
                  roundStartTime := Some(now))
        else marked;
      Ok(ReadyReply(updated, updated.player1.ready && updated.player2.ready))
  }

  datatype ForfeitReply =
    | AlreadyEnded
    | Forfeited(game: Game, forfeitBy: string, winner: string)

  /**
   * A client reports that `forfeitPlayerId` timed out. A match that is
   * finished or forfeited is left alone; otherwise the addressed slot
   * forfeits and the other slot wins.
   */
  function ForfeitGame(games: map<string, Game>, gameId: string, forfeitPlayerId: string): (r: Result<ForfeitReply>)
    ensures r.Err? <==> gameId !in games
    ensures r.Err? ==> r.error == NotFound
    ensures r.Ok? ==> (r.value.AlreadyEnded? <==> Ended(games[gameId].status))
    ensures r.Ok? && r.value.Forfeited? ==>
      var g := games[gameId];
      && r.value.forfeitBy == CallerSlot(g, forfeitPlayerId).name
      && r.value.winner == OpponentSlot(g, forfeitPlayerId).name
      && r.value.game == g.(status := Forfeit, winner := Some(r.value.winner), forfeitBy := Some(r.value.forfeitBy))
  {
    if gameId !in games then Err(NotFound)
    else
      var g := games[gameId];
      if Ended(g.status) then Ok(AlreadyEnded)
      else
        var loser := CallerSlot(g, forfeitPlayerId).name;
        var winner := OpponentSlot(g, forfeitPlayerId).name;
        Ok(Forfeited(g.(status := Forfeit, winner := Some(winner), forfeitBy := Some(loser)), loser, winner))
  }

  /** The opponent of the polling player was last seen more than the timeout ago. */
  predicate OpponentTimedOut(g: Game, playerId: string, now: int) {
    var seen := OpponentSlot(g, playerId).lastSeen;
    seen.Some? && now - seen.value > DisconnectTimeout
  }

  /**
   * The state poll: records that the polling player was seen now, and if the
   * match is active and the opponent has been silent for longer than the
   * timeout, the opponent forfeits and the poller wins. A never-seen
   * opponent is never timed out.
   */
  function GetGameState(games: map<string, Game>, gameId: string, playerId: string, now: int): (r: Result<Game>)
    ensures r.Err? <==> gameId !in games
    ensures r.Err? ==> r.error == NotFound
    ensures r.Ok? ==>
      var g := games[gameId];
      var g' := r.value;
      && CallerSlot(g', playerId) == CallerSlot(g, playerId).(lastSeen := Some(now))
      && OpponentSlot(g', playerId) == OpponentSlot(g, playerId)
      && (Active(g.status) && OpponentTimedOut(g, playerId, now) ==>
            g'.status == Forfeit && g'.winner == Some(CallerSlot(g, playerId).name)
            && g'.forfeitBy == Some(OpponentSlot(g, playerId).name))
      && (!(Active(g.status) && OpponentTimedOut(g, playerId, now)) ==>
            g'.status == g.status && g'.winner == g.winner && g'.forfeitBy == g.forfeitBy)
      && g'.(player1 := g.player1, player2 := g.player2, status := g.status,
             winner := g.winner, forfeitBy := g.forfeitBy) == g
  {
    if gameId !in games then Err(NotFound)
    else
      var g := games[gameId];
      var seen := WithCallerSlot(g, playerId, CallerSlot(g, playerId).(lastSeen := Some(now)));
      if Active(seen.status) && OpponentTimedOut(seen, playerId, now) then
        Ok(seen.(status := Forfeit,
                 winner := Some(CallerSlot(seen, playerId).name),
                 forfeitBy := Some(OpponentSlot(seen, playerId).name)))
      else Ok(seen)
  }
}

=== FILE: player_stats.dfy ===
/**
 * The per-player statistics record kept for the leaderboard: the counters
 * one finished single-player round updates, the streaks, and the score
 * formula.
 */
module PlayerStats {

  datatype Player = Player(
    name: string,
    totalWins: int,
    totalLosses: int,
    totalDraws: int,
    totalGames: int,
    normalWins: int,
    hardWins: int,
    veteranWins: int,
    currentStreak: int,
    bestStreak: int,
    score: int)

  /** A new player: every counter starts at zero. */
  function NewPlayer(name: string): (r: Player)
    ensures Consistent(r) && r.name == name
    ensures r.totalWins == 0 && r.totalLosses == 0 && r.totalDraws == 0 && r.totalGames == 0
    ensures r.normalWins == 0 && r.hardWins == 0 && r.veteranWins == 0
    ensures r.currentStreak == 0 && r.bestStreak == 0 && r.score == 0
  {
    Player(name, 0, 0, 0, 0, 0, 0, 0, 0, 0, 0)
  }

  /** Ten points a win, five more for a veteran win, three more for a hard win, minus two a loss. */
  function Score(p: Player): int {
    p.totalWins * 10 + p.veteranWins * 5 + p.hardWins * 3 - p.totalLosses * 2
  }

  /** Sets the stored score from the counters. */
  function CalculateScore(p: Player): (r: Player)
    ensures r.score == Score(p)
    ensures r.(score := p.score) == p
  {
    p.(score := Score(p))
  }

  /**
   * The counters agree with each other: every game is a win, a loss or a
   * draw; difficulty wins are a part of all wins; the best streak is at
   * least the current one; the stored score matches the formula.
   */
  ghost predicate Consistent(p: Player) {
    && p.totalWins >= 0 && p.totalLosses >= 0 && p.totalDraws >= 0
    && p.normalWins >= 0 && p.hardWins >= 0 && p.veteranWins >= 0
    && p.totalWins + p.totalLosses + p.totalDraws == p.totalGames
    && p.normalWins + p.hardWins + p.veteranWins <= p.totalWins
    && 0 <= p.currentStreak <= p.bestStreak
    && p.score == Score(p)
  }

  /** Records one finished round with result "win", "lose" or anything else (a draw). */
  function UpdateStats(p: Player, result: string, difficulty: string): (r: Player)
    ensures r.name == p.name
    ensures r.totalGames == p.totalGames + 1
    ensures r.totalWins == p.totalWins + (if result == "win" then 1 else 0)
    ensures r.totalLosses == p.totalLosses + (if result == "lose" then 1 else 0)
    ensures r.totalDraws == p.totalDraws + (if result != "win" && result != "lose" then 1 else 0)
    ensures r.normalWins == p.normalWins + (if result == "win" && difficulty == "normal" then 1 else 0)
    ensures r.hardWins == p.hardWins + (if result == "win" && difficulty == "hard" then 1 else 0)
    ensures r.veteranWins == p.veteranWins + (if result == "win" && difficulty == "veteran" then 1 else 0)
    ensures result == "win" ==>
      && r.currentStreak == p.currentStreak + 1
      && r.bestStreak == (if p.currentStreak + 1 > p.bestStreak then p.currentStreak + 1 else p.bestStreak)
    ensures result == "lose" ==> r.currentStreak == 0 && r.bestStreak == p.bestStreak
    ensures result != "win" && result != "lose" ==> r.currentStreak == p.currentStreak && r.bestStreak == p.bestStreak
    ensures r.score == r.totalWins * 10 + r.veteranWins * 5 + r.hardWins * 3 - r.totalLosses * 2
  {
    var played := p.(totalGames := p.totalGames + 1);
    var counted :=
      if result == "win" then
        var streak := played.currentStreak + 1;
        var won := played.(totalWins := played.totalWins + 1, currentStreak := streak,
                           bestStreak := if streak > played.bestStreak then streak else played.bestStreak);
        if difficulty == "normal" then won.(normalWins := won.normalWins + 1)
        else if difficulty == "hard" then won.(hardWins := won.hardWins + 1)
        else if difficulty == "veteran" then won.(veteranWins := won.veteranWins + 1)
        else won
      else if result == "lose" then played.(totalLosses := played.totalLosses + 1, currentStreak := 0)
      else played.(totalDraws := played.totalDraws + 1);
    CalculateScore(counted)
  }

  /** Recording a round keeps the counters consistent. */
  lemma UpdatePreservesConsistency(p: Player, result: string, difficulty: string)
    requires Consistent(p)
    ensures Consistent(UpdateStats(p, result, difficulty))
  {
  }

  /** How the score moves with one round: +10, +13 or +15 for a win by difficulty, -2 for a loss, 0 for a draw. */
  lemma ScoreChange(p: Player, result: string, difficulty: string)
    requires Consistent(p)
    ensures UpdateStats(p, result, difficulty).score - p.score ==
      if result == "win" then
        (if difficulty == "veteran" then 15 else if difficulty == "hard" then 13 else 10)
      else if result == "lose" then -2
      else 0
  {
  }

  /**
   * The win rate as a percentage: 0 for a player with no games, otherwise
   * wins over games times a hundred.
   */
  function WinRate(p: Player): (r: real)
    ensures p.totalGames == 0 ==> r == 0.0
    ensures p.totalGames != 0 ==> r * (p.totalGames as real) == (p.totalWins as real) * 100.0
  {
    if p.totalGames == 0 then 0.0
    else (p.totalWins as real / p.totalGames as real) * 100.0
  }
}

=== FILE: queue_rules.dfy ===
/**
 * Properties of the matchmaking queue: one entry per player, creation-time
 * order, lazy expiry, the already-matched short cut, pairing with the
 * oldest searching entry of any mode, and what a caller left waiting is told.
 */
module QueueRules {
  import opened Common
  import opened Elements
  import opened OnlineMatch
  import opened Matchmaking

  /** Dropping entries never creates a duplicate id. */
  lemma {:induction false} FilterKeepsUnique(q: Queue, keep: QueueEntry -> bool)
    requires UniqueIds(q)
    ensures UniqueIds(Filter(q, keep))
  {
    if |q| > 0 {
      var rest := Filter(q[1..], keep);
      assert UniqueIds(q[1..]) by {
        forall i, j | 0 <= i < |q| - 1 && 0 <= j < |q| - 1 && q[1..][i].playerId == q[1..][j].playerId
          ensures i == j
        {
          assert q[i + 1].playerId == q[j + 1].playerId;
        }
      }
      FilterKeepsUnique(q[1..], keep);
      if keep(q[0]) {
        forall j | 0 <= j < |rest|
          ensures rest[j].playerId != q[0].playerId
        {
          assert rest[j] in q[1..];
          var k :| 0 <= k < |q| - 1 && q[1..][k] == rest[j];
          assert q[k + 1] == rest[j];
        }
        assert Filter(q, keep) == [q[0]] + rest;
      } else {
        assert Filter(q, keep) == rest;
      }
    }
  }

  /** Dropping entries keeps creation-time order. */
  lemma {:induction false} FilterKeepsSorted(q: Queue, keep: QueueEntry -> bool)
    requires Sorted(q)
    ensures Sorted(Filter(q, keep))
  {
    if |q| > 0 {
      var rest := Filter(q[1..], keep);
      FilterKeepsSorted(q[1..], keep);
      if keep(q[0]) {
        forall j | 0 <= j < |rest|
          ensures q[0].createdAt <= rest[j].createdAt
        {
          assert rest[j] in q[1..];
          var k :| 0 <= k < |q| - 1 && q[1..][k] == rest[j];
          assert q[k + 1] == rest[j];
        }
        assert Filter(q, keep) == [q[0]] + rest;
      } else {
        assert Filter(q, keep) == rest;
      }
    }
  }

  /** The queue after the refresh-or-insert step of a join. */
  function Queued(q: Queue, playerId: string, playerName: string, mode: string, now: int): Queue {
    Enqueue(Purge(q, now), playerId, playerName, mode, now)
  }

  /** The caller's entry in the purged queue was already paired by someone else's join. */
  predicate ShortCut(q: Queue, playerId: string, now: int) {
    var purged := Purge(q, now);
    FindPlayer(purged, playerId).Some? && AlreadyMatched(purged[FindPlayer(purged, playerId).value])
  }

  /** The refresh-or-insert step keeps ids unique and puts the caller last. */
  lemma QueuedUnique(q: Queue, playerId: string, playerName: string, mode: string, now: int)
    requires UniqueIds(q)
    ensures var queued := Queued(q, playerId, playerName, mode, now);
      && UniqueIds(queued)
      && forall i :: 0 <= i < |queued| - 1 ==> queued[i].playerId != playerId
  {
    var purged := Purge(q, now);
    FilterKeepsUnique(q, NotStale(now));
    FilterKeepsUnique(purged, OtherThan(playerId));
    var queued := Queued(q, playerId, playerName, mode, now);
    var kept := Without(purged, playerId);
    assert queued[..|queued| - 1] == kept;
    forall i | 0 <= i < |queued| - 1
      ensures queued[i].playerId != playerId
    {
      assert queued[i] == kept[i];
      assert kept[i] in kept;
    }
  }

  /** A join never gives a player a second entry. */
  lemma JoinKeepsUnique(q: Queue, playerId: string, playerName: string, mode: string, now: int,
                        newGameId: string, randomMode: Mode)
    requires UniqueIds(q)
    ensures UniqueIds(Join(q, playerId, playerName, mode, now, newGameId, randomMode).queue)
  {
    FilterKeepsUnique(q, NotStale(now));
    if !ShortCut(q, playerId, now) {
      QueuedUnique(q, playerId, playerName, mode, now);
    }
  }

  /** Leaving never gives a player a second entry. */
  lemma LeaveKeepsUnique(q: Queue, playerId: string)
    requires UniqueIds(q)
    ensures UniqueIds(Leave(q, playerId))
  {
    FilterKeepsUnique(q, OtherThan(playerId));
  }

  /** Pairing only changes statuses and match ids: the queue keeps its ids and timestamps, position by position. */
  lemma JoinKeepsTimestamps(q: Queue, playerId: string, playerName: string, mode: string, now: int,
                            newGameId: string, randomMode: Mode)
    requires !ShortCut(q, playerId, now)
    ensures var r := Join(q, playerId, playerName, mode, now, newGameId, randomMode).queue;
      var queued := Queued(q, playerId, playerName, mode, now);
      && |r| == |queued|
      && forall i :: 0 <= i < |r| ==> r[i].playerId == queued[i].playerId && r[i].createdAt == queued[i].createdAt
  {
    match FindPartner(Queued(q, playerId, playerName, mode, now), playerId)
    case None =>
    case Some(k) =>
  }

  /** The refresh-or-insert step leaves no stale entry. */
  lemma QueuedFresh(q: Queue, playerId: string, playerName: string, mode: string, now: int)
    ensures forall e :: e in Queued(q, playerId, playerName, mode, now) ==> !IsStale(e, now)
  {
    var queued := Queued(q, playerId, playerName, mode, now);
    var kept := Without(Purge(q, now), playerId);
    assert queued == kept + [queued[|queued| - 1]];
  }

  /** Two queues with the same timestamps position by position are equally ordered, fresh and bounded. */
  lemma SameTimestamps(r: Queue, queued: Queue, now: int)
    requires |r| == |queued| && forall i :: 0 <= i < |r| ==> r[i].createdAt == queued[i].createdAt
    ensures Sorted(queued) ==> Sorted(r)
    ensures (forall e :: e in queued ==> !IsStale(e, now)) ==> forall e :: e in r ==> !IsStale(e, now)
    ensures (forall e :: e in queued ==> e.createdAt <= now) ==> forall e :: e in r ==> e.createdAt <= now
  {
    if forall e :: e in queued ==> !IsStale(e, now) {
      forall e | e in r
        ensures !IsStale(e, now)
      {
        var i :| 0 <= i < |r| && r[i] == e;
        assert queued[i] in queued;
      }
    }
    if forall e :: e in queued ==> e.createdAt <= now {
      forall e | e in r
        ensures e.createdAt <= now
      {
        var i :| 0 <= i < |r| && r[i] == e;
        assert queued[i] in queued;
      }
    }
  }

  /** After a join no entry is older than the timeout: expiry happens on every join. */
  lemma JoinLeavesNoStaleEntry(q: Queue, playerId: string, playerName: string, mode: string, now: int,
                               newGameId: string, randomMode: Mode)
    ensures forall e :: e in Join(q, playerId, playerName, mode, now, newGameId, randomMode).queue ==> !IsStale(e, now)
  {
    if !ShortCut(q, playerId, now) {
      QueuedFresh(q, playerId, playerName, mode, now);
      JoinKeepsTimestamps(q, playerId, playerName, mode, now, newGameId, randomMode);
      SameTimestamps(Join(q, playerId, playerName, mode, now, newGameId, randomMode).queue,
                     Queued(q, playerId, playerName, mode, now), now);
    }
  }

  /** The refresh-or-insert step keeps creation-time order and stamps nothing after `now`. */
  lemma QueuedSorted(q: Queue, playerId: string, playerName: string, mode: string, now: int)
    requires Sorted(q) && forall e :: e in q ==> e.createdAt <= now
    ensures var queued := Queued(q, playerId, playerName, mode, now);
      Sorted(queued) && forall e :: e in queued ==> e.createdAt <= now
  {
    var purged := Purge(q, now);
    FilterKeepsSorted(q, NotStale(now));
    FilterKeepsSorted(purged, OtherThan(playerId));
    var queued := Queued(q, playerId, playerName, mode, now);
    var kept := Without(purged, playerId);
    assert queued[..|queued| - 1] == kept;
    forall i | 0 <= i < |queued|
      ensures queued[i].createdAt <= now
    {
      if i < |queued| - 1 {
        assert queued[i] == kept[i];
        assert kept[i] in kept;
      }
    }
    assert Sorted(queued);
  }

  /** A join keeps creation-time order, given a clock that never runs backwards. */
  lemma JoinKeepsSorted(q: Queue, playerId: string, playerName: string, mode: string, now: int,
                        newGameId: string, randomMode: Mode)
    requires Sorted(q) && forall e :: e in q ==> e.createdAt <= now
    ensures var r := Join(q, playerId, playerName, mode, now, newGameId, randomMode).queue;
      Sorted(r) && forall e :: e in r ==> e.createdAt <= now
  {
    FilterKeepsSorted(q, NotStale(now));
    if !ShortCut(q, playerId, now) {
      QueuedSorted(q, playerId, playerName, mode, now);
      JoinKeepsTimestamps(q, playerId, playerName, mode, now, newGameId, randomMode);
      SameTimestamps(Join(q, playerId, playerName, mode, now, newGameId, randomMode).queue,
                     Queued(q, playerId, playerName, mode, now), now);
    }
  }

  /** A caller whose entry was already paired gets that match id back, and the join does nothing but expire. */
  lemma JoinShortCut(q: Queue, playerId: string, playerName: string, mode: string, now: int,
                     newGameId: string, randomMode: Mode)
    requires ShortCut(q, playerId, now)
    ensures var purged := Purge(q, now);
      Join(q, playerId, playerName, mode, now, newGameId, randomMode)
        == JoinResult(purged, None, JoinMatched(purged[FindPlayer(purged, playerId).value].matchedGameId.value))
  {
  }

  /**
   * Otherwise the caller ends up with exactly one entry, the last one,
   * stamped with `now`; an existing entry keeps its name and mode, a new
   * one is searching.
   */
  lemma JoinCallerEntry(q: Queue, playerId: string, playerName: string, mode: string, now: int,
                        newGameId: string, randomMode: Mode)
    requires UniqueIds(q) && !ShortCut(q, playerId, now)
    ensures var j := Join(q, playerId, playerName, mode, now, newGameId, randomMode);
      var r := j.queue;
      && |r| > 0
      && var last := r[|r| - 1];
      && last.playerId == playerId && last.createdAt == now
      && (forall i :: 0 <= i < |r| - 1 ==> r[i].playerId != playerId)
      && (FindPlayer(Purge(q, now), playerId).None? ==> last.playerName == playerName && last.mode == mode)
      && (j.game.None? && FindPlayer(Purge(q, now), playerId).None? ==> last.status == Searching)
  {
    QueuedUnique(q, playerId, playerName, mode, now);
  }

  /** A join creates a match exactly when the caller was not already paired and a partner is waiting. */
  lemma JoinCreatesMatchIff(q: Queue, playerId: string, playerName: string, mode: string, now: int,
                            newGameId: string, randomMode: Mode)
    ensures Join(q, playerId, playerName, mode, now, newGameId, randomMode).game.Some?
        <==> !ShortCut(q, playerId, now) && FindPartner(Queued(q, playerId, playerName, mode, now), playerId).Some?
  {
  }

  /**
   * A pairing takes the first searching entry of another player, whatever
   * its mode: that player gets slot 1, the caller slot 2, in a new playing
   * match; both entries are marked matched into the new match and nothing
   * else in the queue changes.
   */
  lemma JoinPairing(q: Queue, playerId: string, playerName: string, mode: string, now: int,
                    newGameId: string, randomMode: Mode)
    requires !ShortCut(q, playerId, now) && FindPartner(Queued(q, playerId, playerName, mode, now), playerId).Some?
    ensures var queued := Queued(q, playerId, playerName, mode, now);
      var r := Join(q, playerId, playerName, mode, now, newGameId, randomMode);
      var k := FindPartner(queued, playerId).value;
      && r.game.Some?
      && queued[k].status == Searching && queued[k].playerId != playerId
      && (forall j :: 0 <= j < k ==> !Eligible(queued[j], playerId))
      && r.game.value == CreateGame(newGameId, randomMode, queued[k].playerId, queued[k].playerName,
                                    playerId, playerName, now)
      && r.queue == MarkMatched(queued, k, playerId, newGameId)
      && r.queue[k].status == Matched && r.queue[k].matchedGameId == Some(newGameId)
      && r.queue[|r.queue| - 1].status == Matched && r.queue[|r.queue| - 1].matchedGameId == Some(newGameId)
      && r.reply == JoinMatched(newGameId)
  {
  }

  /** In a queue kept in creation order, the partner is the oldest eligible entry. */
  lemma PartnerIsOldest(q: Queue, playerId: string, playerName: string, mode: string, now: int,
                        newGameId: string, randomMode: Mode)
    requires Sorted(q) && forall e :: e in q ==> e.createdAt <= now
    requires !ShortCut(q, playerId, now) && FindPartner(Queued(q, playerId, playerName, mode, now), playerId).Some?
    ensures var queued := Queued(q, playerId, playerName, mode, now);
      var k := FindPartner(queued, playerId).value;
      forall j :: 0 <= j < |queued| && Eligible(queued[j], playerId) ==> queued[k].createdAt <= queued[j].createdAt
  {
    JoinPairing(q, playerId, playerName, mode, now, newGameId, randomMode);
    QueuedSorted(q, playerId, playerName, mode, now);
  }

  /**
   * A caller left waiting is the only searching entry: any other would have
   * been paired. So at most one player is reported searching — the caller,
   * unless its refreshed entry is not searching — and the reported position
   * counts only the caller's own entry, when it searches in the requested
   * mode.
   */
  lemma WaitingCallerIsAlone(q: Queue, playerId: string, playerName: string, mode: string, now: int,
                             newGameId: string, randomMode: Mode)
    requires Join(q, playerId, playerName, mode, now, newGameId, randomMode).reply.JoinSearching?
    ensures var r := Join(q, playerId, playerName, mode, now, newGameId, randomMode);
      var last := r.queue[|r.queue| - 1];
      && (forall e :: e in r.queue && e.status == Searching ==> e.playerId == playerId)
      && r.reply.playersOnline == (if last.status == Searching then 1 else 0)
      && r.reply.queuePosition == (if last.status == Searching && last.mode == mode then 1 else 0)
      && (FindPlayer(Purge(q, now), playerId).None? ==> r.reply == JoinSearching(1, 1))
  {
    var purged := Purge(q, now);
    var queued := Queued(q, playerId, playerName, mode, now);
    var kept := Without(purged, playerId);
    var last := queued[|queued| - 1];
    assert queued == kept + [last];
    assert FindPartner(queued, playerId).None?;
    forall i | 0 <= i < |kept|
      ensures kept[i].status != Searching
    {
      assert kept[i] in kept;
      assert queued[i] == kept[i];
    }
    assert [last][1..] == [];
    FilterAppend(kept, [last], AheadOf(mode, now));
    FilterKeepsNone(kept, AheadOf(mode, now));
    FilterAppend(kept, [last], IsSearching());
    FilterKeepsNone(kept, IsSearching());
    forall e | e in queued && e.status == Searching
      ensures e.playerId == playerId
    {
      var i :| 0 <= i < |queued| && queued[i] == e;
    }
  }

  /**
   * With one entry per player, leaving removes exactly the caller's entry
   * and keeps every other entry, in order.
   */
  lemma LeaveRemovesOnlyEntry(q: Queue, playerId: string, k: nat)
    requires UniqueIds(q) && k < |q| && q[k].playerId == playerId
    ensures Leave(q, playerId) == q[..k] + q[k + 1..]
  {
    forall i | 0 <= i < |q| && i != k
      ensures OtherThan(playerId)(q[i])
    {
      assert q[i].playerId != q[k].playerId;
    }
    FilterDropsOne(q, OtherThan(playerId), k);
  }

  /** Leaving keeps creation-time order and the clock bound. */
  lemma LeaveKeepsSorted(q: Queue, playerId: string, now: int)
    requires Sorted(q) && forall e :: e in q ==> e.createdAt <= now
    ensures var r := Leave(q, playerId);
      Sorted(r) && forall e :: e in r ==> e.createdAt <= now
  {
    FilterKeepsSorted(q, OtherThan(playerId));
  }

  datatype QueueCall =
    | JoinCall(playerId: string, playerName: string, mode: string, now: int, newGameId: string, randomMode: Mode)
    | LeaveCall(playerId: string)

  function Apply(q: Queue, c: QueueCall): Queue {
    match c
    case JoinCall(id, name, mode, now, gameId, m) => Join(q, id, name, mode, now, gameId, m).queue
    case LeaveCall(id) => Leave(q, id)
  }

  /** One call never gives a player a second entry. */
  lemma ApplyKeepsUnique(q: Queue, c: QueueCall)
    requires UniqueIds(q)
    ensures UniqueIds(Apply(q, c))
  {
    match c
    case JoinCall(id, name, mode, now, gameId, m) => JoinKeepsUnique(q, id, name, mode, now, gameId, m);
    case LeaveCall(id) => LeaveKeepsUnique(q, id);
  }

  /** Applies calls in order. */
  function Run(q: Queue, calls: seq<QueueCall>): Queue
    decreases |calls|
  {
    if |calls| == 0 then q else Run(Apply(q, calls[0]), calls[1..])
  }

  /** After any sequence of joins and leaves no player has more than one entry. */
  lemma {:induction false} RunKeepsUnique(q: Queue, calls: seq<QueueCall>)
    requires UniqueIds(q)
    ensures UniqueIds(Run(q, calls))
    decreases |calls|
  {
    if |calls| > 0 {
      ApplyKeepsUnique(q, calls[0]);
      RunKeepsUnique(Apply(q, calls[0]), calls[1..]);
    }
  }

  /** The clock readings of the joins in a run never go below `t` and never run backwards. */
  predicate ClockFrom(calls: seq<QueueCall>, t: int)
    decreases |calls|
  {
    |calls| == 0 ||
    match calls[0]
    case JoinCall(_, _, _, now, _, _) => t <= now && ClockFrom(calls[1..], now)
    case LeaveCall(_) => ClockFrom(calls[1..], t)
  }

  /** The clock reading of a run's last join, or `t` if it has none. */
  function LastClock(calls: seq<QueueCall>, t: int): int
    decreases |calls|
  {
    if |calls| == 0 then t
    else match calls[0]
      case JoinCall(_, _, _, now, _, _) => LastClock(calls[1..], now)
      case LeaveCall(_) => LastClock(calls[1..], t)
  }

  /**
   * Any sequence of joins and leaves under a clock that never runs
   * backwards keeps the queue in creation-time order, and no entry is
   * stamped later than the run's last clock reading.
   */
  lemma {:induction false} RunKeepsSorted(q: Queue, calls: seq<QueueCall>, t: int)
    requires Sorted(q) && (forall e :: e in q ==> e.createdAt <= t) && ClockFrom(calls, t)
    ensures Sorted(Run(q, calls))
    ensures forall e :: e in Run(q, calls) ==> e.createdAt <= LastClock(calls, t)
    decreases |calls|
  {
    if |calls| > 0 {
      match calls[0]
      case JoinCall(id, name, mode, now, gameId, m) =>
        JoinKeepsSorted(q, id, name, mode, now, gameId, m);
        RunKeepsSorted(Apply(q, calls[0]), calls[1..], now);
      case LeaveCall(id) =>
        LeaveKeepsSorted(q, id, t);
        RunKeepsSorted(Apply(q, calls[0]), calls[1..], t);
    }
  }

  /**
   * In every queue reachable from the empty queue under a clock that never
   * runs backwards, a join that pairs takes the oldest eligible entry.
   */
  lemma ReachablePartnerIsOldest(calls: seq<QueueCall>, t: int, playerId: string, playerName: string,
                                 mode: string, now: int, newGameId: string, randomMode: Mode)
    requires ClockFrom(calls, t) && LastClock(calls, t) <= now
    requires var q := Run([], calls);
      !ShortCut(q, playerId, now) && FindPartner(Queued(q, playerId, playerName, mode, now), playerId).Some?
    ensures var queued := Queued(Run([], calls), playerId, playerName, mode, now);
      var k := FindPartner(queued, playerId).value;
      forall j :: 0 <= j < |queued| && Eligible(queued[j], playerId) ==> queued[k].createdAt <= queued[j].createdAt
  {
    RunKeepsSorted([], calls, t);
    PartnerIsOldest(Run([], calls), playerId, playerName, mode, now, newGameId, randomMode);
  }

  /**
   * Two players asking for different modes within the timeout are paired:
   * the first waits alone, the second's join creates the match, in the
   * drawn mode rather than either requested one.
   */
  lemma TwoJoinsPair(idA: string, nameA: string, idB: string, nameB: string, t0: int, t1: int,
                     unusedId: string, gameId: string, m: Mode)
    requires idA != idB && t0 <= t1 <= t0 + QueueTimeout
    ensures var r1 := Join([], idA, nameA, "classic", t0, unusedId, m);
      && r1.reply == JoinSearching(1, 1)
      && var r2 := Join(r1.queue, idB, nameB, "full", t1, gameId, m);
      && r2.reply == JoinMatched(gameId)
      && r2.game.Some?
      && r2.game.value.player1.id == idA && r2.game.value.player2.id == idB
      && r2.game.value.mode == ModeName(m)
  {
    var r1 := Join([], idA, nameA, "classic", t0, unusedId, m);
    WaitingCallerIsAlone([], idA, nameA, "classic", t0, unusedId, m);
    assert r1.queue == [QueueEntry(idA, nameA, "classic", Searching, None, t0)];
    var purged := Purge(r1.queue, t1);
    assert r1.queue[0] in purged;
    assert FindPlayer(purged, idB).None?;
    var queued := Queued(r1.queue, idB, nameB, "full", t1);
    assert queued[0] == r1.queue[0];
  }
}
